=== FILE: README.md ===
# EDA tool: upload gate, cleaning and image plan

A Dafny model of the decision logic of a small Flask exploratory-data-analysis
tool. A user uploads a CSV or Excel file. `app.py` checks the name, saves the
file, reads it, cleans the table and renders a report. The report has a preview
of the table, a list of plots, a cleaned CSV and a PDF. `analyzer.py` holds a
second `generate_plots`: it reads a path, coerces the columns and plots every
number column, but fills no gaps.

The model is functional. A table is a sequence of named columns of one dtype
each. Number (`real`), text and datetime-tick columns hold optional cells, with
None for a missing entry. Bool columns hold plain `bool`s, since they cannot
hold a missing entry.
The pandas number parser is an abstract parameter `parse: string -> Option<real>`.
Plots are tags, `Histogram(c)`, `BoxPlot(c)` and `Heatmap(cols)`, not PNG bytes.

| file | module | what it holds |
|---|---|---|
| `wrappers.dfy` | `Wrappers` | `Option`, `Result`, and the two Python errors raised (`ValueError`, `KeyError`) |
| `strings.dfy` | `Strings` | ASCII lower-casing, `endswith`, last index, `replace(',', '')`, `strip()` |
| `filenames.dfy` | `FileNames` | `allowed_file`, app.py's reader choice and analyzer.py's dispatch |
| `stats.dfy` | `Stats` | non-missing count, mean, mode and `fillna` over `Option` cells |
| `frames.dfy` | `Frames` | columns, tables, column selection, `head(n)` |
| `cleaning.dfy` | `Cleaning` | the classification and imputation half of app.py's `generate_plots` |
| `plots.dfy` | `Plots` | the image lists of both `generate_plots`, with the plot loops as methods |
| `analyzer.dfy` | `Analyzer` | analyzer.py's `generate_plots` |
| `app.dfy` | `App` | the `/upload` route, and worked examples comparing the two versions |

The model follows the code, including these behaviours of it:

- A text column becomes numeric when `parsed / len > 0.5` (app.py:37): more
  than half of ALL its entries must parse, missing ones included. Exactly half
  stays text.
- The text fill in `generate_plots` only skips columns with no rows
  (app.py:49). Given a text column with rows but no value, `mode()[0]` raises
  `KeyError(0)` and `generate_plots` fails. The readers type an all-missing
  column as float64, not text, so such a column reaches `generate_plots` only
  from a frame the readers did not produce.
- `is_numeric_dtype` holds for bool, so app.py treats bool columns as numeric and
  plots them (app.py:40-41). analyzer.py's `select_dtypes("number")` leaves them
  out (analyzer.py:34).
- A numeric column with no value is skipped for plots (app.py:54-55), but it
  still counts for the heatmap threshold `len(numeric_cols) > 1` (app.py:78).
- `generate_plots` mutates the uploaded frame in place, so the HTML preview
  `df.head(20)` (app.py:152) shows cleaned rows, not the file as uploaded.

## Model

| member | source | states |
|---|---|---|
| `FileNames.Extension` | app.py:25-26 | the extension is absent exactly when the name has no '.', and otherwise it is the text after the last '.' |
| `FileNames.AllowedFile` | app.py:25-26 | `allowed_file`, which analyzer.py:17-18 repeats word for word and the same predicate models; its meaning is stated by `AllowedFileIff` and the lemmas below |
| `FileNames.AllowedFileIff` | app.py:23-26 | the gate admits a name exactly when its last extension, lower-cased, is "csv" or "xlsx" |
| `FileNames.AllowedFileIgnoresCase` | app.py:26 | for every name `pre.ext` with a dot-free `ext`: it is admitted exactly when `pre.` followed by the lower-cased `ext` is, so case never matters |
| `FileNames.AllowedFileUsesLastDot` | app.py:26 | only the text after the last '.' counts: two names with the same final extension get the same verdict, whatever precedes it ("x.tar.csv" and "a.csv" alike) |
| `FileNames.AllowedFileNeedsDot` | app.py:26 | every name without a '.' is refused |
| `FileNames.AllowedFileRefusesBareCsv` | app.py:26 | an instance: the bare word "csv" is refused |
| `FileNames.AllowedFileRefusesXls` | app.py:23 | "a.xls" is refused: the old Excel format is not in the allowed set |
| `FileNames.AllowedFileRefusesInnerExtension` | app.py:26 | for every `pre`, every `inner` (an allowed extension included) and every dot-free `ext` whose lower-case form is not allowed, `pre.inner.ext` is refused |
| `FileNames.AllowedFileRefusesCsvTxt` | app.py:26 | an instance: "a.csv.txt" is refused |
| `FileNames.UploadReader` | app.py:135-138 | app.py's reader choice; its meaning for admitted names is stated by `UploadReaderOfAllowedName` |
| `FileNames.UploadReaderOfAllowedName` | app.py:135-138 | after the gate, the CSV reader is chosen exactly for the lower-case extension "csv"; "xlsx" in any case and every other spelling of "csv" go to Excel |
| `FileNames.UpperCaseCsvReadAsExcel` | app.py:135-138 | "X.CSV" passes the gate and is then read by the Excel reader |
| `FileNames.AnalyzerReader` | analyzer.py:23-28 | analyzer.py's dispatch; its meaning is stated by `AnalyzerReaderIff` |
| `FileNames.AnalyzerReaderIff` | analyzer.py:23-28 | the analyzer reads CSV exactly for the extension "csv" and Excel exactly for "xls" or "xlsx", case-sensitively; every other path fails with ValueError("Unsupported file type") |
| `Strings.EndsWith` | app.py:135 | `str.endswith`; `EndsWithIff` relates it to the last extension |
| `FileNames.EndsWithIff` | analyzer.py:23-25 | for a dot-free extension, a suffix test on "." + ext is the same as a last-extension test |
| `FileNames.AnalyzerReadsRefusedXls` | analyzer.py:17-25 | the analyzer reads "a.xls", which the upload gate refuses |
| `FileNames.AnalyzerRefusesAdmittedUpperCase` | analyzer.py:17-28 | the analyzer refuses "A.CSV", which the upload gate admits |
| `Strings.Lower` | app.py:26 | lower-casing keeps the length and lowers each character |
| `Strings.LowerIdempotent` | app.py:26 | lower-casing twice is lower-casing once |
| `Strings.LowerKeepsNonLetter` | app.py:26 | lower-casing neither adds nor removes a non-letter such as '.' |
| `Strings.LastIndexOf` | app.py:26 | no index exactly when the character is absent; otherwise the index of its last occurrence |
| `Strings.RemoveCommas` | app.py:36 | `replace(',', '')`: no comma is left, every other character keeps its count, a comma-free string is unchanged, and a single comma becomes empty while any other single character stays |
| `Strings.RemoveCommasAppend` | app.py:36 | removal distributes over concatenation; with the one-character cases this fixes the result, so the kept characters stay in their order |
| `Strings.StripBounds` | app.py:36 | `strip()` keeps the longest slice that neither starts nor ends with white space, removing only white space |
| `Strings.Strip` | app.py:36 | `strip()` returns a slice of the string outside which there is only white space, and which neither starts nor ends with white space |
| `Strings.StripNoop` | app.py:36 | stripping a string that does not start or end with white space changes nothing |
| `Cleaning.CleanText` | app.py:36 | the text the parser sees; `CleanTextIdempotent` and `CleanTextOfPlain` state its meaning |
| `Cleaning.Coerce` | app.py:36 | a missing entry stays missing, so no more entries have a number than had a value; two entries with the same cleaned text get the same number; a one-entry column becomes the parse of its cleaned text, or a gap for a gap, which with `CoerceAppend` fixes the whole conversion |
| `Cleaning.CoerceEntry` | app.py:36 | each entry on its own: a gap stays a gap, an entry whose cleaned text does not parse becomes a gap, and one that parses becomes its number |
| `Cleaning.CoerceOfCleaned` | app.py:36 | commas and surrounding white space do not matter: converting the already cleaned entries gives the same numbers |
| `Cleaning.CoerceAppend` | app.py:36 | the conversion is entry-wise: converting two parts of a column and joining them is converting the whole |
| `Cleaning.CleanTextOfPlain` | app.py:36 | text without commas and without white space at either end reaches the parser as it is |
| `Cleaning.CleanTextIdempotent` | app.py:36 | a cleaned entry has no comma and cleaning it again changes nothing |
| `Cleaning.Classify` | app.py:34-41 | numeric and bool columns are numeric and unchanged; a text column becomes its coerced column exactly when 2 × parsed > length, and is kept otherwise; datetime columns are neither |
| `Cleaning.ThresholdRule` | app.py:37 | the rule is the source's `parsed / len > 0.5`, with an empty column never numeric |
| `Cleaning.RatioAboveHalf` | app.py:37 | for a positive length n, k / n > 0.5 exactly when 2k > n |
| `Cleaning.Parsed` | app.py:37 | `converted.notna().sum()`; `ThresholdRule`, `NoneParsed` and `AllMissingStaysText` state its role |
| `Cleaning.ExactlyHalfStaysText` | app.py:37 | every text column in which exactly half of the entries parse stays text and is not added to `numeric_cols` |
| `Cleaning.OneOfTwoStaysText` | app.py:37 | an instance: a two-entry column with one entry that parses stays text |
| `Cleaning.NoneParsed` | app.py:36-37 | a column none of whose cleaned entries parses has no parsed entry |
| `Cleaning.AllMissingStaysText` | app.py:36-37 | a text column without a value never parses, so it stays text |
| `Cleaning.ClassifyAll` | app.py:34-41 | every column keeps its place, name and row count; `numeric_cols` holds exactly the numeric and bool columns and the text columns with more than half of their entries parsing; exactly those text columns become their conversion, and every other column is unchanged |
| `Cleaning.FillNumeric` | app.py:44-45 | present entries are kept; if any value exists, every gap becomes the mean and none is left; an all-missing column is unchanged; the mean is unchanged |
| `Cleaning.FillText` | app.py:48-50 | succeeds exactly for a column with no rows or with a value, else fails with KeyError(0); present entries are kept; every gap becomes one and the same value, a value of the column of maximal count; the result is `fillna(m)` for a single m |
| `Cleaning.Impute` | app.py:43-50 | a number column gets its gaps filled with the column mean; a text column's fill succeeds exactly when the mode fill does, and then it is the mode fill; bool and datetime columns are untouched; a fill keeps the name, the length, and whether any value is present |
| `Cleaning.ImputeAll` | app.py:43-50 | the table fill succeeds exactly when every column's fill does, and then it is the column-wise fill; the only error is KeyError(0) |
| `Cleaning.CleanTable` | app.py:29-50 | the cleaning half of `generate_plots`; its meaning is stated by the `CleanTable` lemmas below |
| `Cleaning.CleanTablePreservesShape` | app.py:29-50 | cleaning keeps the number, names, order and row counts of the columns |
| `Cleaning.CleanTableFailsIff` | app.py:48-50 | cleaning fails, with KeyError(0), exactly when some text column has rows but no value |
| `Cleaning.CleanTableNumericColumns` | app.py:34-41 | a column is in `numeric_cols` exactly when it is numeric, bool, or text with more than half of its entries parsing |
| `Cleaning.CleanTableFillsGaps` | app.py:43-50 | after cleaning, text columns have no gaps, and a numeric column has gaps only when it has no value at all; the coerced column's mean is kept |
| `Cleaning.CleanTableKeepsValues` | app.py:34-50 | present values survive cleaning; bool and datetime columns are untouched |
| `Cleaning.CleanTableImputes` | app.py:43-50 | in a cleaned table every number column (original or converted) is its classified form with the gaps filled by the mean, and every text column is the mode fill of its entries |
| `Stats.Present` | app.py:37 | the count of non-missing entries is zero exactly when all are missing, and full exactly when none is |
| `Stats.PresentMonotone` | app.py:36-37 | a column missing wherever another is missing has no more values |
| `Stats.Mean` | app.py:45 | the mean is undefined exactly when every entry is missing |
| `Stats.Mode` | app.py:50 | a mode exists exactly when some entry is present; it is one of the entries, and no entry occurs more often |
| `Stats.FillMissing` | app.py:45 | `fillna(v)`; `FillMissingComplete`, `FillMissingNoop`, `TotalOfFill` and `CountOfFill` state its meaning |
| `Stats.FillMissingComplete` | app.py:45 | after `fillna(v)` no entry is missing |
| `Stats.FillMissingNoop` | app.py:45 | `fillna` leaves a column without gaps unchanged |
| `Stats.MeanWithinBounds` | app.py:45 | the mean lies within any interval that holds every present value |
| `Stats.MeanOfFillWithMean` | app.py:44-45 | filling a column with its own mean leaves the mean unchanged |
| `Stats.ModeSurvivesFill` | app.py:48-50 | after filling the gaps with the mode, it is still a most frequent value |
| `Stats.CountOfFill` | app.py:50 | filling with v adds the number of gaps to v's count and leaves every other value's count unchanged |
| `Stats.TotalOfFill` | app.py:45 | filling with v adds v once per gap to the sum |
| `Frames.Selected` | app.py:53 | the selected positions are exactly those flagged, in increasing order |
| `Frames.Head` | app.py:152 | `head(n)` keeps every column in order, and each becomes a column of the same dtype and name holding the first min(n, rows) cells of the original |
| `Frames.TakeRows` | app.py:152 | `head(n)` on one column: same dtype and name, the first min(n, rows) cells |
| `Frames.FirstRowsUnique` | app.py:152 | a column holding the first rows of another is fixed by its length, so `head(n)` has no choice in which rows it keeps |
| `Plots.Pairs` | app.py:53-75 | for each column in order, its histogram then its box plot |
| `Plots.WithValue` | app.py:54-55 | the numeric columns that are plotted; `WithValueSound`, `WithValueComplete` and `WithValueOrdered` state its meaning |
| `Plots.WithValueSound` | app.py:54-55 | the plotted columns are numeric columns that have a value |
| `Plots.WithValueComplete` | app.py:54-55 | every numeric column that has a value is plotted |
| `Plots.WithValueOrdered` | app.py:53-55 | plotted columns keep column order |
| `Plots.HeatmapFor` | app.py:78-80 | the heatmap step; the heatmap clauses of `AppPlanLayout` and `AnalyzerPlanLayout` state its meaning |
| `Plots.AppPlan` | app.py:52-88 | app.py's image list; its layout is stated by `AppPlanLayout` and computed loop by loop by `RenderAppPlots` |
| `Plots.AppPlanLayout` | app.py:53-88 | app.py's list has 2 × (numeric columns with a value) images, plus one heatmap last when there is more than one numeric column, skipped ones included; pairs follow column order |
| `Plots.AppPlotStep` | app.py:53-75 | one loop iteration adds the column's two plots exactly when it has a value |
| `Plots.RenderAppPairs` | app.py:53-75 | the plot loop, statement by statement, yields the pairs of the columns with a value |
| `Plots.RenderAppPlots` | app.py:53-88 | the whole image loop yields app.py's count, order and trailing heatmap |
| `Plots.AnalyzerPlan` | analyzer.py:33-70 | analyzer.py's image list; its layout is stated by `AnalyzerPlanLayout` and computed loop by loop by `RenderAnalyzerPlots` |
| `Plots.AnalyzerPlanLayout` | analyzer.py:34-68 | analyzer.py's list has 2n + (1 if n > 1) images, pairs in column order and the heatmap last |
| `Plots.AnalyzerPlotStep` | analyzer.py:36-57 | one loop iteration adds the column's histogram and box plot |
| `Plots.RenderAnalyzerPairs` | analyzer.py:36-57 | the analyzer's plot loop yields the pairs of every selected column |
| `Plots.RenderAnalyzerPlots` | analyzer.py:36-68 | the analyzer's image loop yields its count, order and trailing heatmap |
| `Analyzer.CoerceColumn` | analyzer.py:30-31 | coercion keeps a column's name and row count |
| `Analyzer.CoerceAll` | analyzer.py:30-31 | every column keeps its place, name and row count; afterwards the number columns are exactly the former number and datetime columns and the text columns whose every entry parses; every other column, and every former number column, is unchanged |
| `Analyzer.AllParse` | analyzer.py:31 | the condition under which `errors="ignore"` converts a text column; `CoerceAllOrNothing` and `CoerceAll` state its role |
| `Analyzer.CoerceAllOrNothing` | analyzer.py:31 | a text column is converted exactly when every present entry parses, entry by entry with gaps kept; otherwise it is unchanged |
| `Analyzer.CoerceKeepsValues` | analyzer.py:30-34 | numeric and bool columns are unchanged; a converted column has a value exactly where the text had one; a datetime column becomes its ticks as numbers, with NaT mapped to the NaT sentinel |
| `Analyzer.NumberColumns` | analyzer.py:34 | `select_dtypes("number")` selects exactly the number columns (bool excluded), in column order |
| `Analyzer.GeneratePlots` | analyzer.py:21-70 | analyzer.py's `generate_plots`; stated by `UnsupportedPathFailsFirst` and `AnalyzerImageLayout` |
| `Analyzer.SupportedPathSucceeds` | analyzer.py:23-26 | a path with a csv, xls or xlsx suffix always yields an image list, whatever the file holds |
| `Analyzer.UnsupportedPathFailsFirst` | analyzer.py:23-28 | an unsupported suffix fails with ValueError("Unsupported file type"), independent of the file contents and the parser |
| `Analyzer.AnalyzerImageLayout` | analyzer.py:21-70 | the result has 2n + (1 if n > 1) images for the n number columns after coercion, in column order, with the heatmap last |
| `App.UploadFile` | app.py:122-156 | the `/upload` route; stated by the lemmas below |
| `App.UploadPath` | app.py:131 | `os.path.join` of the upload folder and the sanitised name; `UploadRefusedIff` and `PeopleReport` use it as the saved path |
| `App.FilesWritten` | app.py:132-148 | the files a response writes; stated by `UploadRefusedIff` and `ReportShape` |
| `App.UploadRefusedIff` | app.py:124-132 | the route refuses exactly a missing file part ("No file uploaded") and a name the gate refuses ("Invalid file type"); a refusal writes nothing, and any other request saves the upload first |
| `App.RefusalReadsNothing` | app.py:124-128 | a refusal does not depend on the sanitiser, the reader or the parser |
| `App.UploadReaderChoice` | app.py:130-138 | an admitted upload reaches the reader step, and the CSV reader is used exactly when the sanitised name ends with ".csv" |
| `App.UpperCaseCsvGoesToExcel` | app.py:127-138 | "X.CSV" is admitted and read by the Excel reader |
| `App.ReportContents` | app.py:141-156 | a report saves the upload under the sanitised name, reads it with the suffix's reader, exports exactly the cleaned table, and its images are app.py's plot plan for that table and its number columns |
| `App.ReportShape` | app.py:141-156 | a report keeps the ingested table's shape, previews the first min(20, rows) rows of every cleaned column, and writes the upload, the cleaned CSV and the PDF |
| `App.PeopleCleaned` | app.py:34-50 | a worked table, for any parser that reads neither "NY" nor "LA" as a number: the age gap takes the mean 95/3, the city gap takes "NY", and only age is numeric |
| `App.PeopleReport` | app.py:122-156 | uploading that table as "people.csv", with any such parser, saves "uploads/people.csv", reads CSV, and plots the histogram and box plot of age, with no heatmap |
| `App.EmptyNumericColumnCountsForHeatmap` | app.py:53-55 | with two numeric columns, one without values, app.py plots only the first but draws the heatmap over both |
| `App.AnalyzerPlotsEveryNumberColumn` | analyzer.py:34-68 | analyzer.py plots two number columns alike, with or without values |
| `App.BoolCleanedByApp` | app.py:40-50 | a bool column is numeric for app.py and passes cleaning untouched |
| `App.BoolPlottedByApp` | app.py:53-75 | a bool column with a value gets a histogram and a box plot from app.py |
| `App.BoolNotPlottedByAnalyzer` | analyzer.py:34 | analyzer.py does not plot a bool column |

## Left out

- Flask request handling, templates, the index and download routes, and the PDF
  layout are not modelled. The route is modelled by what it returns and by the
  list of files it writes.
- `secure_filename` is a parameter of the route. Werkzeug is not part of this model.
- `pd.read_csv` and `pd.read_excel` are a parameter: a total function from the
  reader and the path to the table. The model starts from the ingested table.
  A reader that raises is not modelled. For example, `read_excel` on an admitted
  "X.CSV" holding CSV text raises after `file.save` (app.py:132-138). So
  `UploadFile` returns `Aborted` only for the `KeyError` of cleaning, and
  analyzer.py's `generate_plots` fails only with the `ValueError` of its dispatch.
- `ingest` is unconstrained: it may return tables the readers never produce,
  such as a text column with rows but no value. `Aborted` is reachable only
  through such tables, because the readers type an all-missing column as
  float64. That typing rule of the readers is not modelled.
- The number parser of `pd.to_numeric` is a parameter. Which strings it accepts
  (signs, exponents, "inf", white space) is not modelled.
- The parser's None means both "does not parse" and "parses to NaN". pandas
  tells them apart. With `errors="ignore"` (analyzer.py:31), a string that
  converts to NaN, such as the empty string, does not block the conversion of
  its column. In the model such an entry blocks it.
- Plot rendering, PNG bytes, base64 and correlation values are left out; images are tags.
- Floating-point arithmetic: the mean is over `real`, without rounding or infinities.
- Stats.Mode: picks the earliest entry of maximal count, while pandas'
  `mode()[0]` (app.py:50) picks the smallest one after sorting. The two differ
  on ties: for the text column `[Some("b"), Some("a"), None]` app.py fills the
  gap with "a", and the model's `FillText` fills it with "b". The model's
  contracts state only that the fill is an entry of maximal count.
- Text cells are modelled by their text. Object columns mixing numbers and text,
  and the "nan"/"None" rendering of gaps by `astype(str)`, are covered only by
  saying that a gap never parses.
- Time-zone-aware datetimes, duplicate column names and categorical dtypes are
  not modelled.
- The chained `df[col].fillna(..., inplace=True)` is modelled as the intended
  in-place fill. Copy-on-write pandas versions would leave the frame unchanged.
- The fixed output paths are shared between requests. Concurrent uploads
  overwriting each other's report are not modelled.
- Lower-casing is ASCII-only. Python's full Unicode `lower()` is not modelled.

=== FILE: analyzer.dfy ===
/** analyzer.py's `generate_plots(file_path)`: pick a reader by the path's
    suffix (or raise), coerce every column with `pd.to_numeric(errors="ignore")`,
    then plot every column of a number dtype. No gaps are filled. */
module Analyzer {
  import opened Wrappers
  import opened Stats
  import opened Frames
  import opened FileNames
  import opened Plots

  /** The int64 value of NaT (the smallest int64), which is what a missing
      datetime becomes when `to_numeric` views datetime64 data as int64. */
  const NaTTicks: int := -0x8000_0000_0000_0000

  /** Every non-missing entry parses. */
  predicate AllParse(parse: string -> Option<real>, xs: seq<Option<string>>) {
    forall i :: 0 <= i < |xs| && xs[i].Some? ==> parse(xs[i].value).Some?
  }

  /** `pd.to_numeric(df[col], errors="ignore")` on one column. Numeric and
      bool columns are returned as they are; a text column is converted only
      when every entry parses (missing entries stay missing), and is returned
      unchanged otherwise; datetime columns become their int64 tick counts. */
  function CoerceColumn(parse: string -> Option<real>, c: Column): (r: Column)
    ensures r.name == c.name && r.Len() == c.Len()
  {
    match c
    case ObjectCol(name, xs) =>
      if AllParse(parse, xs) then
        NumericCol(name, seq(|xs|, i requires 0 <= i < |xs| =>
          if xs[i].Some? then parse(xs[i].value) else None))
      else c
    case DateTimeCol(name, ts) =>
      NumericCol(name, seq(|ts|, i requires 0 <= i < |ts| =>
        Some(if ts[i].Some? then ts[i].value as real else NaTTicks as real)))
    case NumericCol(_, _) => c
    case BoolCol(_, _) => c
  }

  /** The coercion loop over every column: each keeps its place, name and row
      count; afterwards the number columns are exactly the former number and
      datetime columns and the text columns whose every entry parses, and
      every other column is unchanged. */
  function CoerceAll(parse: string -> Option<real>, t: Table): (r: Table)
    ensures |r| == |t|
    ensures SameShape(r, t)
    ensures forall i :: 0 <= i < |t| ==> (r[i].NumericCol? <==>
      t[i].NumericCol? || t[i].DateTimeCol? || (t[i].ObjectCol? && AllParse(parse, t[i].texts)))
    ensures forall i :: 0 <= i < |t| && !r[i].NumericCol? ==> r[i] == t[i]
    ensures forall i :: 0 <= i < |t| && t[i].NumericCol? ==> r[i] == t[i]
  {
    seq(|t|, i requires 0 <= i < |t| => CoerceColumn(parse, t[i]))
  }

  /** `df.select_dtypes(include="number").columns`: int and float columns, in
      column order; bool is not a number dtype here. */
  function NumberColumns(t: Table): (r: seq<nat>)
    ensures forall k :: 0 <= k < |r| ==> r[k] < |t| && t[r[k]].NumericCol?
    ensures forall i :: 0 <= i < |t| && t[i].NumericCol? ==> i in r
    ensures forall k, l :: 0 <= k < l < |r| ==> r[k] < r[l]
  {
    Selected(seq(|t|, i requires 0 <= i < |t| => t[i].NumericCol?))
  }

  /** analyzer.py's `generate_plots`; `ingest` stands for the chosen reader
      applied to the path. */
  function GeneratePlots(path: string, ingest: (Reader, string) -> Table,
                         parse: string -> Option<real>): Result<seq<Image>, Error>
  {
    match AnalyzerReader(path)
    case Failure(e) => Failure(e)
    case Success(reader) =>
      var df := CoerceAll(parse, ingest(reader, path));
      Success(AnalyzerPlan(df, NumberColumns(df)))
  }

  // ---------------------------------------------------------------------------
  // Properties

  /** Coercion is all or nothing per text column: converted exactly when
      every non-missing entry parses, and then each entry becomes its parse
      while missing entries stay missing; otherwise nothing changes. */
  lemma CoerceAllOrNothing(parse: string -> Option<real>, c: Column)
    requires c.ObjectCol?
    ensures CoerceColumn(parse, c).NumericCol? <==> AllParse(parse, c.texts)
    ensures !AllParse(parse, c.texts) ==> CoerceColumn(parse, c) == c
    ensures AllParse(parse, c.texts) ==> forall i :: 0 <= i < |c.texts| ==>
      && (c.texts[i].None? ==> CoerceColumn(parse, c).nums[i].None?)
      && (c.texts[i].Some? ==> CoerceColumn(parse, c).nums[i] == parse(c.texts[i].value))
  {
  }

  /** Coercion changes nothing but types: numeric and bool columns stay as
      they are, and a converted column has a value where the text did. */
  lemma CoerceKeepsValues(parse: string -> Option<real>, c: Column)
    ensures c.NumericCol? || c.BoolCol? ==> CoerceColumn(parse, c) == c
    ensures c.ObjectCol? && CoerceColumn(parse, c).NumericCol? ==>
      forall i :: 0 <= i < |c.texts| ==> (c.texts[i].Some? <==> CoerceColumn(parse, c).nums[i].Some?)
    ensures c.DateTimeCol? ==>
      CoerceColumn(parse, c).NumericCol? && Present(CoerceColumn(parse, c).nums) == c.Len()
    ensures c.DateTimeCol? ==> forall i :: 0 <= i < |c.ticks| ==>
      CoerceColumn(parse, c).nums[i] == Some(if c.ticks[i].Some? then c.ticks[i].value as real else NaTTicks as real)
  {
    if c.DateTimeCol? {
      var r := CoerceColumn(parse, c);
      assert forall i :: 0 <= i < |r.nums| ==> r.nums[i].Some?;
    }
  }

  /** A path the dispatch refuses fails with ValueError before anything is
      read: the result depends neither on the file nor on the parser. */
  lemma UnsupportedPathFailsFirst(path: string, ingest: (Reader, string) -> Table,
                                  ingest': (Reader, string) -> Table,
                                  parse: string -> Option<real>, parse': string -> Option<real>)
    requires Extension(path) != Some("csv") && Extension(path) != Some("xls") && Extension(path) != Some("xlsx")
    ensures GeneratePlots(path, ingest, parse) == Failure(ValueError("Unsupported file type"))
    ensures GeneratePlots(path, ingest, parse) == GeneratePlots(path, ingest', parse')
  {
    AnalyzerReaderIff(path);
  }

  /** A path the dispatch accepts always yields an image list: analyzer.py
      raises only on an unsupported suffix. */
  lemma SupportedPathSucceeds(path: string, ingest: (Reader, string) -> Table,
                              parse: string -> Option<real>)
    requires Extension(path) == Some("csv") || Extension(path) == Some("xls") || Extension(path) == Some("xlsx")
    ensures GeneratePlots(path, ingest, parse).Success?
  {
    AnalyzerReaderIff(path);
  }

  /** The image count of analyzer.py: 2n + (1 if n > 1), n the number of
      number-dtype columns after coercion; histogram/box-plot pairs come in
      column order and the heatmap is last. */
  lemma AnalyzerImageLayout(path: string, ingest: (Reader, string) -> Table, parse: string -> Option<real>)
    requires GeneratePlots(path, ingest, parse).Success?
    ensures var df := CoerceAll(parse, ingest(AnalyzerReader(path).value, path));
            var cols := NumberColumns(df);
            var images := GeneratePlots(path, ingest, parse).value;
      && |images| == 2 * |cols| + (if |cols| > 1 then 1 else 0)
      && (forall k :: 0 <= k < |cols| ==>
            images[2 * k] == Histogram(df[cols[k]].name) && images[2 * k + 1] == BoxPlot(df[cols[k]].name))
      && (|cols| > 1 ==> images[|images| - 1] == Heatmap(NamesAt(df, cols)))
  {
    var df := CoerceAll(parse, ingest(AnalyzerReader(path).value, path));
    var cols := NumberColumns(df);
    AnalyzerPlanLayout(df, cols);
  }
}

=== FILE: app.dfy ===
/** app.py's upload route `upload_file`: refuse a missing or disallowed file
    before anything is saved, save it, choose a reader by a case-sensitive
    suffix test, clean the table, plan the images and write the exports.
    The sanitiser (`secure_filename`), the readers and the number parser are
    parameters; the response is modelled by what the route returns and writes. */
module App {
  import opened Wrappers
  import opened Strings
  import opened Stats
  import opened Frames
  import opened FileNames
  import opened Cleaning
  import opened Plots
  import Analyzer

  const UploadFolder: string := "uploads"
  const CleanedCsvPath: string := "static/cleaned_data.csv"
  const PdfPath: string := "static/report.pdf"
  /** Rows of the table shown in the HTML report (`df.head(20)`). */
  const PreviewRows: nat := 20

  /** What the route returns. */
  datatype Response =
    | Refused(message: string)                          // plain text; nothing saved
    | Aborted(saved: string, reader: Reader, error: Error)  // exception after the upload was saved
    | Report(saved: string, reader: Reader, preview: Table, images: seq<Image>, cleaned: Table)

  /** `os.path.join(UPLOAD_FOLDER, filename)`: an absolute name replaces the folder. */
  function UploadPath(name: string): string {
    if |name| > 0 && name[0] == '/' then name else UploadFolder + "/" + name
  }

  /** The route. `field` is the filename of the "file" part of the request
      (None when there is none); a FileStorage with an empty filename is falsy. */
  function UploadFile(field: Option<string>, sanitize: string -> string,
                      ingest: (Reader, string) -> Table, parse: string -> Option<real>): Response
  {
    match field
    case None => Refused("No file uploaded")
    case Some(f) =>
      if f == "" || !AllowedFile(f) then Refused("Invalid file type")
      else
        var name := sanitize(f);
        var path := UploadPath(name);
        var reader := UploadReader(name);
        var df := ingest(reader, path);
        match CleanTable(parse, df)
        case Failure(e) => Aborted(path, reader, e)
        case Success(c) =>
          // generate_plots cleans `df` in place, so the preview shows cleaned rows
          Report(path, reader, Head(c.table, PreviewRows), AppPlan(c.table, c.numeric), c.table)
  }

  /** The files a response leaves behind, in the order they are written. */
  function FilesWritten(r: Response): seq<string> {
    match r
    case Refused(_) => []
    case Aborted(saved, _, _) => [saved]
    case Report(saved, _, _, _, _) => [saved, CleanedCsvPath, PdfPath]
  }

  // ---------------------------------------------------------------------------
  // Properties

  /** The route refuses exactly a missing file part and a name the gate does
      not admit, with the source's two messages, and then writes nothing;
      every other request saves the upload. */
  lemma UploadRefusedIff(field: Option<string>, sanitize: string -> string,
                         ingest: (Reader, string) -> Table, parse: string -> Option<real>)
    ensures var r := UploadFile(field, sanitize, ingest, parse);
      && (r == Refused("No file uploaded") <==> field.None?)
      && (r == Refused("Invalid file type") <==> field.Some? && !AllowedFile(field.value))
      && (r.Refused? <==> FilesWritten(r) == [])
      && (!r.Refused? ==> FilesWritten(r)[0] == UploadPath(sanitize(field.value)))
  {
    if field.Some? && field.value == "" {
      assert Extension("") == None;
    }
  }

  /** A refused request is decided before anything is saved or read: the
      response does not depend on the sanitiser, the file contents or the parser. */
  lemma RefusalReadsNothing(field: Option<string>,
                            sanitize: string -> string, sanitize': string -> string,
                            ingest: (Reader, string) -> Table, ingest': (Reader, string) -> Table,
                            parse: string -> Option<real>, parse': string -> Option<real>)
    requires UploadFile(field, sanitize, ingest, parse).Refused?
    ensures UploadFile(field, sanitize', ingest', parse') == UploadFile(field, sanitize, ingest, parse)
  {
  }

  /** After the gate, the CSV reader is chosen exactly when the sanitised name
      ends with lower-case ".csv"; everything else admitted goes to Excel. */
  lemma UploadReaderChoice(f: string, sanitize: string -> string,
                           ingest: (Reader, string) -> Table, parse: string -> Option<real>)
    requires AllowedFile(f)
    ensures var r := UploadFile(Some(f), sanitize, ingest, parse);
      !r.Refused? && (r.Aborted? || r.Report?) &&
      (r.reader == CsvReader <==> EndsWith(sanitize(f), ".csv"))
  {
  }

  /** "X.CSV" passes the case-insensitive gate and is then read as a
      spreadsheet (when the sanitiser keeps the name). */
  lemma UpperCaseCsvGoesToExcel(ingest: (Reader, string) -> Table, parse: string -> Option<real>)
    ensures var r := UploadFile(Some("X.CSV"), s => s, ingest, parse);
      !r.Refused? && r.reader == ExcelReader
  {
    UpperCaseCsvReadAsExcel();
    UploadReaderChoice("X.CSV", s => s, ingest, parse);
  }

  /** A report keeps the ingested table's shape, previews the first
      min(20, rows) rows of every cleaned column, and writes the cleaned CSV
      and the PDF. */
  lemma ReportShape(f: string, sanitize: string -> string,
                    ingest: (Reader, string) -> Table, parse: string -> Option<real>)
    requires UploadFile(Some(f), sanitize, ingest, parse).Report?
    ensures var r := UploadFile(Some(f), sanitize, ingest, parse);
            var df := ingest(r.reader, r.saved);
      && SameShape(r.cleaned, df)
      && |r.preview| == |df|
      && (forall i :: 0 <= i < |df| ==>
            && r.preview[i].name == df[i].name
            && FirstRowsOf(r.preview[i], r.cleaned[i])
            && r.preview[i].Len() == if df[i].Len() < PreviewRows then df[i].Len() else PreviewRows)
      && FilesWritten(r) == [r.saved, CleanedCsvPath, PdfPath]
  {
    var r := UploadFile(Some(f), sanitize, ingest, parse);
    CleanTablePreservesShape(parse, ingest(r.reader, r.saved));
  }

  /** What a report holds: the upload is saved under the sanitised name and
      read by the reader its suffix selects, cleaning that table succeeded,
      the exported table is the cleaned one, and the images are app.py's plan
      for it (laid out as `AppPlanLayout` states). */
  lemma ReportContents(f: string, sanitize: string -> string,
                       ingest: (Reader, string) -> Table, parse: string -> Option<real>)
    requires UploadFile(Some(f), sanitize, ingest, parse).Report?
    ensures var r := UploadFile(Some(f), sanitize, ingest, parse);
            var df := ingest(r.reader, r.saved);
      && r.saved == UploadPath(sanitize(f))
      && r.reader == UploadReader(sanitize(f))
      && CleanTable(parse, df).Success?
      && r.cleaned == CleanTable(parse, df).value.table
      && |CleanTable(parse, df).value.numeric| == |r.cleaned|
      && r.images == AppPlan(r.cleaned, CleanTable(parse, df).value.numeric)
  {
    var r := UploadFile(Some(f), sanitize, ingest, parse);
    CleanTablePreservesShape(parse, ingest(r.reader, r.saved));
  }

  // ---------------------------------------------------------------------------
  // A worked upload

  /** A table with a numeric column holding a gap and a text column holding a gap. */
  function People(): Table {
    [NumericCol("age", [Some(25.0), Some(30.0), None, Some(40.0)]),
     ObjectCol("city", [Some("NY"), Some("LA"), Some("NY"), None])]
  }

  /** `People` after cleaning: the age gap holds the mean 95/3, the city gap
      the most frequent city. */
  function CleanedPeople(): Table {
    [NumericCol("age", [Some(25.0), Some(30.0), Some(95.0 / 3.0), Some(40.0)]),
     ObjectCol("city", [Some("NY"), Some("LA"), Some("NY"), Some("NY")])]
  }

  /** With any parser that reads neither city name as a number, only the age
      column is numeric and cleaning fills both gaps. */
  lemma PeopleCleaned(parse: string -> Option<real>)
    requires parse("NY") == None && parse("LA") == None
    ensures CleanTable(parse, People()) == Success(Classified(CleanedPeople(), [true, false]))
  {
    PeopleClassified(parse);
    PeopleImputed();
  }

  lemma PeopleClassified(parse: string -> Option<real>)
    requires parse("NY") == None && parse("LA") == None
    ensures ClassifyAll(parse, People()) == Classified(People(), [true, false])
  {
    CityParsesNothing(parse);
    var c := ClassifyAll(parse, People());
    assert c.table[0] == People()[0] && c.table[1] == People()[1];
    PairEq(c.table, People());
    assert c.numeric[0] && !c.numeric[1];
  }

  lemma CityParsesNothing(parse: string -> Option<real>)
    requires parse("NY") == None && parse("LA") == None
    ensures Parsed(parse, [Some("NY"), Some("LA"), Some("NY"), None]) == 0
  {
    CityNamesClean();
    NoneParsedOfFour(parse, "NY", "LA");
  }

  lemma NoneParsedOfFour(parse: string -> Option<real>, a: string, b: string)
    requires parse(CleanText(a)).None? && parse(CleanText(b)).None?
    ensures Parsed(parse, [Some(a), Some(b), Some(a), None]) == 0
  {
    NoneParsed(parse, [Some(a), Some(b), Some(a), None]);
  }

  lemma CityNamesClean()
    ensures CleanText("NY") == "NY" && CleanText("LA") == "LA"
  {
    assert !IsSpace('N') && !IsSpace('Y') && !IsSpace('L') && !IsSpace('A');
    CleanTextOfPlain("NY");
    CleanTextOfPlain("LA");
  }

  lemma PeopleImputed()
    ensures ImputeAll(People()) == Success(CleanedPeople())
  {
    AgeFilled();
    CityFilled();
    var u := ImputeAll(People());
    assert Impute(People()[0]) == Success(CleanedPeople()[0]);
    assert Impute(People()[1]) == Success(CleanedPeople()[1]);
    assert u.Success? && |u.value| == 2;
    PairEq(u.value, CleanedPeople());
  }

  lemma PairEq(a: Table, b: Table)
    requires |a| == 2 && |b| == 2 && a[0] == b[0] && a[1] == b[1]
    ensures a == b
  {
  }

  lemma AgeFilled()
    ensures FillNumeric([Some(25.0), Some(30.0), None, Some(40.0)])
         == [Some(25.0), Some(30.0), Some(95.0 / 3.0), Some(40.0)]
  {
    var age: seq<Option<real>> := [Some(25.0), Some(30.0), None, Some(40.0)];
    assert Present(age) == 3;
    assert Total(age) == 95.0;
    var age' := FillNumeric(age);
    assert age'[2] == Some(95.0 / 3.0);
    assert age'[0] == age[0] && age'[1] == age[1] && age'[3] == age[3];
  }

  lemma CityFilled()
    ensures FillText([Some("NY"), Some("LA"), Some("NY"), None])
         == Success([Some("NY"), Some("LA"), Some("NY"), Some("NY")])
  {
    var city := [Some("NY"), Some("LA"), Some("NY"), None];
    CityMode();
    assert FillText(city) == Success(FillMissing(city, "NY"));
    CityGapFilled();
  }

  lemma CityGapFilled()
    ensures FillMissing([Some("NY"), Some("LA"), Some("NY"), None], "NY")
         == [Some("NY"), Some("LA"), Some("NY"), Some("NY")]
  {
    var city := [Some("NY"), Some("LA"), Some("NY"), None];
    var city' := FillMissing(city, "NY");
    assert city'[0] == city[0] && city'[1] == city[1] && city'[2] == city[2];
    assert city'[3] == Some("NY");
  }

  lemma CityMode()
    ensures Mode([Some("NY"), Some("LA"), Some("NY"), None]) == Some("NY")
  {
  }

  /** Uploading `People` as "people.csv": the upload is saved under the upload
      folder, read as CSV, and the report plots the age column alone (one
      numeric column: no heatmap), previewing all four cleaned rows. */
  lemma PeopleReport(parse: string -> Option<real>)
    requires parse("NY") == None && parse("LA") == None
    ensures UploadFile(Some("people.csv"), s => s, (_, _) => People(), parse)
         == Report("uploads/people.csv", CsvReader, Head(CleanedPeople(), PreviewRows),
                   [Histogram("age"), BoxPlot("age")], CleanedPeople())
  {
    PeopleAdmitted();
    PeopleCleaned(parse);
    UploadPathOfPeople();
    PeoplePlan(CleanedPeople());
  }

  lemma PeopleAdmitted()
    ensures AllowedFile("people.csv") && "people.csv" != "" && UploadReader("people.csv") == CsvReader
  {
    assert "people.csv" == "people" + "." + "csv";
    assert Lower("csv") == "csv";
    AllowedFileOfJoin("people", "csv");
    ExtensionOfJoin("people", "csv");
    UploadReaderOfAllowedName("people.csv");
  }

  lemma UploadPathOfPeople()
    ensures UploadPath("people.csv") == "uploads/people.csv"
  {
    assert "people.csv"[0] == 'p';
  }

  lemma PeoplePlan(t: Table)
    requires |t| == 2 && t[0].name == "age" && t[0].HasValue()
    ensures AppPlan(t, [true, false]) == [Histogram("age"), BoxPlot("age")]
  {
    SelectedTF();
    OneColumnPlan(t, 0);
    assert HeatmapFor(NamesAt(t, [0])) == [];
  }

  // ---------------------------------------------------------------------------
  // Small evaluations used by the examples

  lemma SelectedT()
    ensures Selected([true]) == [0]
  {
    assert [true][..0] == [];
  }

  lemma SelectedF()
    ensures Selected([false]) == []
  {
    assert [false][..0] == [];
  }

  lemma SelectedTF()
    ensures Selected([true, false]) == [0]
  {
    assert [true, false][..1] == [true];
    SelectedT();
  }

  lemma SelectedTT()
    ensures Selected([true, true]) == [0, 1]
  {
    assert [true, true][..1] == [true];
    SelectedT();
  }

  /** The pairs for a single column that has a value. */
  lemma OneColumnPlan(t: Table, i: nat)
    requires i < |t| && t[i].HasValue()
    ensures Pairs(NamesAt(t, WithValue(t, [i]))) == [Histogram(t[i].name), BoxPlot(t[i].name)]
  {
    WithValueOne(t, i);
    assert NamesAt(t, [i]) == [t[i].name];
    PairsOfOne(t[i].name);
  }

  lemma WithValueOne(t: Table, i: nat)
    requires i < |t|
    ensures WithValue(t, [i]) == if t[i].HasValue() then [i] else []
  {
    assert [i][..0] == [];
  }

  lemma PairsOfOne(name: string)
    ensures Pairs([name]) == [Histogram(name), BoxPlot(name)]
  {
    var r := Pairs([name]);
    assert |r| == 2 && r[0] == Histogram(name) && r[1] == BoxPlot(name);
  }

  // ---------------------------------------------------------------------------
  // The two versions of generate_plots side by side

  /** Two numeric columns, the second without any value: app.py plots only
      the first, yet draws the heatmap over both, since its threshold counts
      every numeric column. */
  lemma EmptyNumericColumnCountsForHeatmap(t: Table)
    requires |t| == 2 && t[0].HasValue() && !t[1].HasValue()
    ensures AppPlan(t, [true, true])
         == [Histogram(t[0].name), BoxPlot(t[0].name), Heatmap([t[0].name, t[1].name])]
  {
    SelectedTT();
    SkippedSecond(t);
    OneColumnPlan(t, 0);
    var p := Pairs(NamesAt(t, WithValue(t, [0, 1])));
    var h := HeatmapFor(NamesAt(t, [0, 1]));
    assert NamesAt(t, [0, 1]) == [t[0].name, t[1].name];
    assert AppPlan(t, [true, true]) == p + h;
  }

  lemma SkippedSecond(t: Table)
    requires |t| == 2 && !t[1].HasValue()
    ensures WithValue(t, [0, 1]) == WithValue(t, [0])
  {
    assert [0, 1][..1] == [0];
  }

  /** analyzer.py plots two number columns alike, with or without values. */
  lemma AnalyzerPlotsEveryNumberColumn(t: Table)
    requires |t| == 2 && t[0].NumericCol? && t[1].NumericCol?
    ensures AnalyzerPlan(t, Analyzer.NumberColumns(t))
         == [Histogram(t[0].name), BoxPlot(t[0].name), Histogram(t[1].name), BoxPlot(t[1].name),
             Heatmap([t[0].name, t[1].name])]
  {
    assert seq(|t|, i requires 0 <= i < |t| => t[i].NumericCol?) == [true, true];
    SelectedTT();
    var names := [t[0].name, t[1].name];
    assert NamesAt(t, [0, 1]) == names;
    PairsOfTwo(names[0], names[1]);
  }

  lemma PairsOfTwo(a: string, b: string)
    ensures Pairs([a, b]) == [Histogram(a), BoxPlot(a), Histogram(b), BoxPlot(b)]
  {
    var r := Pairs([a, b]);
    assert |r| == 4 && r[0] == Histogram(a) && r[1] == BoxPlot(a) && r[2] == Histogram(b) && r[3] == BoxPlot(b);
  }

  /** A bool column is numeric for app.py (`is_numeric_dtype`) and passes
      cleaning untouched ... */
  lemma BoolCleanedByApp(parse: string -> Option<real>, b: Column)
    requires b.BoolCol?
    ensures CleanTable(parse, [b]) == Success(Classified([b], [true]))
  {
    var t := [b];
    assert ClassifyAll(parse, t) == Classified(t, [true]);
    assert Impute(t[0]) == Success(b);
    var u := ImputeAll(t);
    assert u.Success? && |u.value| == 1 && u.value[0] == b;
    assert u.value == t;
  }

  /** ... and gets plots. */
  lemma BoolPlottedByApp(b: Column)
    requires b.BoolCol? && b.HasValue()
    ensures AppPlan([b], [true]) == [Histogram(b.name), BoxPlot(b.name)]
  {
    var t := [b];
    SelectedT();
    OneColumnPlan(t, 0);
    assert HeatmapFor(NamesAt(t, [0])) == [];
  }

  /** analyzer.py's `select_dtypes("number")` leaves a bool column out. */
  lemma BoolNotPlottedByAnalyzer(b: Column)
    requires b.BoolCol?
    ensures AnalyzerPlan([b], Analyzer.NumberColumns([b])) == []
  {
    var t := [b];
    assert seq(|t|, i requires 0 <= i < |t| => t[i].NumericCol?) == [false];
    SelectedF();
  }
}

=== FILE: cleaning.dfy ===
/** The cleaning half of app.py's `generate_plots`: decide which columns are
    numeric (coercing mostly-numeric text columns), then fill numeric gaps
    with the column mean and text gaps with a most frequent value. The table
    is modelled as already ingested; `parse` stands for the number parser of
    `pd.to_numeric` applied to one string (None: the string yields no number). */
module Cleaning {
  import opened Wrappers
  import opened Strings
  import opened Stats
  import opened Frames

  /** The string the parser sees for one object entry: `str.replace(',', '')`
      followed by `str.strip()`. */
  function CleanText(s: string): string {
    Strip(RemoveCommas(s))
  }

  /** `pd.to_numeric(col.astype(str).str.replace(',', '').str.strip(), errors="coerce")`:
      an entry that does not parse becomes missing, and a missing entry (rendered
      "nan" or "None" by `astype(str)`) never parses. */
  function Coerce(parse: string -> Option<real>, xs: seq<Option<string>>): (r: seq<Option<real>>)
    ensures |r| == |xs|
    ensures forall i :: 0 <= i < |xs| && xs[i].None? ==> r[i].None?
    ensures Present(r) <= Present(xs)
    ensures |xs| == 1 ==> r == [if xs[0].Some? then parse(CleanText(xs[0].value)) else None]
    ensures forall i, j ::
      && 0 <= i < |xs| && 0 <= j < |xs| && xs[i].Some? && xs[j].Some?
      && CleanText(xs[i].value) == CleanText(xs[j].value)
      ==> r[i] == r[j]
  {
    var r := seq(|xs|, i requires 0 <= i < |xs| => if xs[i].Some? then parse(CleanText(xs[i].value)) else None);
    PresentMonotone(r, xs);
    r
  }

  /** Every entry replaced by its cleaned text, gaps kept. */
  function CleanAll(xs: seq<Option<string>>): (r: seq<Option<string>>)
    ensures |r| == |xs|
    ensures forall i :: 0 <= i < |xs| ==> (r[i].Some? <==> xs[i].Some?)
  {
    seq(|xs|, i requires 0 <= i < |xs| => if xs[i].Some? then Some(CleanText(xs[i].value)) else None)
  }

  /** Commas and surrounding white space are invisible to the conversion:
      coercing the already cleaned entries gives the same numbers. */
  lemma CoerceOfCleaned(parse: string -> Option<real>, xs: seq<Option<string>>)
    ensures Coerce(parse, CleanAll(xs)) == Coerce(parse, xs)
  {
    var ys := CleanAll(xs);
    forall i | 0 <= i < |xs| && xs[i].Some?
      ensures Coerce(parse, ys)[i] == Coerce(parse, xs)[i]
    {
      CleanTextIdempotent(xs[i].value);
    }
  }

  /** Each entry on its own: a gap stays a gap, an entry whose cleaned text
      does not parse becomes a gap, and one that parses becomes its number. */
  lemma CoerceEntry(parse: string -> Option<real>, xs: seq<Option<string>>, i: nat)
    requires i < |xs|
    ensures xs[i].None? ==> Coerce(parse, xs)[i] == None
    ensures xs[i].Some? ==> Coerce(parse, xs)[i] == parse(CleanText(xs[i].value))
  {
  }

  /** The conversion is entry-wise: converting two pieces of a column and
      joining them gives the conversion of the whole column. */
  lemma CoerceAppend(parse: string -> Option<real>, a: seq<Option<string>>, b: seq<Option<string>>)
    ensures Coerce(parse, a + b) == Coerce(parse, a) + Coerce(parse, b)
  {
  }

  /** Number of entries that parse, `converted.notna().sum()`. */
  function Parsed(parse: string -> Option<real>, xs: seq<Option<string>>): nat {
    Present(Coerce(parse, xs))
  }

  /** The outcome of classifying one column: the column as it now stands and
      whether it joined `numeric_cols`. */
  datatype Verdict = Verdict(column: Column, numeric: bool)

  /** One iteration of the classification loop. An object column becomes
      numeric when strictly more than half of ALL its entries (missing ones
      included) parse; numeric and bool dtypes (`is_numeric_dtype` holds of
      both) are numeric as they are; datetime columns are neither. */
  function Classify(parse: string -> Option<real>, c: Column): (v: Verdict)
    ensures v.column.name == c.name && v.column.Len() == c.Len()
    ensures v.numeric <==> c.NumericCol? || c.BoolCol? || (c.ObjectCol? && 2 * Parsed(parse, c.texts) > |c.texts|)
    ensures !(c.ObjectCol? && v.numeric) ==> v.column == c
    ensures c.ObjectCol? && v.numeric ==> v.column == NumericCol(c.name, Coerce(parse, c.texts))
  {
    match c
    case ObjectCol(name, xs) =>
      if 2 * Parsed(parse, xs) > |xs| then Verdict(NumericCol(name, Coerce(parse, xs)), true)
      else Verdict(c, false)
    case NumericCol(_, _) => Verdict(c, true)
    case BoolCol(_, _) => Verdict(c, true)
    case DateTimeCol(_, _) => Verdict(c, false)
  }

  /** The table after the classification loop, with the membership of each
      column in `numeric_cols`. */
  datatype Classified = Classified(table: Table, numeric: seq<bool>)

  /** The classification loop: every column keeps its place, name and row
      count; `numeric_cols` holds the numeric and bool columns and the text
      columns more than half of whose entries parse; exactly those text
      columns are replaced by their conversion, and nothing else changes. */
  function ClassifyAll(parse: string -> Option<real>, t: Table): (r: Classified)
    ensures |r.table| == |t| && |r.numeric| == |t|
    ensures SameShape(r.table, t)
    ensures forall i :: 0 <= i < |t| ==> (r.numeric[i] <==>
      t[i].NumericCol? || t[i].BoolCol? || (t[i].ObjectCol? && 2 * Parsed(parse, t[i].texts) > |t[i].texts|))
    ensures forall i :: 0 <= i < |t| && t[i].ObjectCol? && r.numeric[i] ==>
      r.table[i] == NumericCol(t[i].name, Coerce(parse, t[i].texts))
    ensures forall i :: 0 <= i < |t| && !(t[i].ObjectCol? && r.numeric[i]) ==> r.table[i] == t[i]
  {
    Classified(seq(|t|, i requires 0 <= i < |t| => Classify(parse, t[i]).column),
               seq(|t|, i requires 0 <= i < |t| => Classify(parse, t[i]).numeric))
  }

  /** For a positive count n: k / n > 0.5 exactly when 2k > n. */
  lemma RatioAboveHalf(k: nat, n: nat)
    requires n > 0
    ensures (k as real) / (n as real) > 0.5 <==> 2 * k > n
  {
    var q, nr, kr := (k as real) / (n as real), n as real, k as real;
    assert q * nr == kr;
    if q > 0.5 {
      ProductSign(q - 0.5, nr);
      assert (q - 0.5) * nr == kr - 0.5 * nr;
    } else {
      ProductSign(0.5 - q, nr);
      assert (0.5 - q) * nr == 0.5 * nr - kr;
    }
  }

  /** Sign of a product with a positive factor. */
  lemma ProductSign(a: real, b: real)
    requires b > 0.0
    ensures a > 0.0 ==> a * b > 0.0
    ensures a >= 0.0 ==> a * b >= 0.0
  {
  }

  /** The comparison as the source writes it, `parsed / len > 0.5`: for an
      empty column pandas divides 0 by 0 and NaN > 0.5 is false. Exactly half
      does not suffice. */
  lemma ThresholdRule(parse: string -> Option<real>, c: Column)
    requires c.ObjectCol?
    ensures Classify(parse, c).numeric <==>
      |c.texts| > 0 && (Parsed(parse, c.texts) as real) / (|c.texts| as real) > 0.5
  {
    if |c.texts| > 0 {
      RatioAboveHalf(Parsed(parse, c.texts), |c.texts|);
    }
  }

  /** A column whose entries parse exactly half of the time stays text. */
  lemma ExactlyHalfStaysText(parse: string -> Option<real>, name: string, xs: seq<Option<string>>)
    requires 2 * Parsed(parse, xs) == |xs|
    ensures Classify(parse, ObjectCol(name, xs)) == Verdict(ObjectCol(name, xs), false)
  {
  }

  /** An instance: one entry that parses and one that does not. */
  lemma OneOfTwoStaysText(parse: string -> Option<real>, a: string, b: string)
    requires parse(CleanText(a)).Some? && parse(CleanText(b)).None?
    ensures Classify(parse, ObjectCol("x", [Some(a), Some(b)])).column
         == ObjectCol("x", [Some(a), Some(b)])
  {
    var cs := Coerce(parse, [Some(a), Some(b)]);
    assert cs[1..][1..] == [];
    assert Present(cs) == 1;
    ExactlyHalfStaysText(parse, "x", [Some(a), Some(b)]);
  }

  /** Cleaning is idempotent: a cleaned entry has no commas and no white
      space at either end, so cleaning it again changes nothing. */
  lemma CleanTextIdempotent(s: string)
    ensures ',' !in CleanText(s)
    ensures CleanText(CleanText(s)) == CleanText(s)
  {
    var t := RemoveCommas(s);
    var b := StripBounds(t);
    NoCommaInSlice(t, b.0, b.1);
    var c := CleanText(s);
    assert RemoveCommas(c) == c;
    StripTrimmed(t);
    StripNoop(c);
  }

  /** Text without commas and without white space at either end is what the
      parser sees as it is. */
  lemma CleanTextOfPlain(s: string)
    requires ',' !in s
    requires s == [] || (!IsSpace(s[0]) && !IsSpace(s[|s| - 1]))
    ensures CleanText(s) == s
  {
    StripNoop(s);
  }

  // ---------------------------------------------------------------------------
  // Imputation

  /** `df[col].fillna(df[col].mean())` for a numeric column. */
  function FillNumeric(xs: seq<Option<real>>): (r: seq<Option<real>>)
    ensures |r| == |xs|
    ensures forall i :: 0 <= i < |xs| && xs[i].Some? ==> r[i] == xs[i]
    ensures Present(xs) > 0 ==> Present(r) == |r|
    ensures Present(xs) > 0 ==> forall i :: 0 <= i < |xs| && xs[i].None? ==> r[i] == Mean(xs)
    ensures Present(xs) == 0 ==> r == xs
    ensures Mean(r) == Mean(xs)
  {
    match Mean(xs)
    case None => xs
    case Some(m) =>
      FillMissingComplete(xs, m);
      MeanOfFillWithMean(xs);
      FillMissing(xs, m)
  }

  /** `if not df[col].empty: df[col].fillna(df[col].mode()[0])` for a text
      column. The guard only skips a column without rows; a column with rows
      but no non-missing entry has an empty mode, and `[0]` raises KeyError. */
  function FillText(xs: seq<Option<string>>): (r: Result<seq<Option<string>>, Error>)
    ensures r.Success? <==> |xs| == 0 || Present(xs) > 0
    ensures r.Failure? ==> r.error == KeyError(0)
    ensures r.Success? ==> |r.value| == |xs| && Present(r.value) == |xs|
    ensures r.Success? ==> forall i :: 0 <= i < |xs| && xs[i].Some? ==> r.value[i] == xs[i]
    ensures r.Success? ==> forall i :: 0 <= i < |xs| && xs[i].None? ==>
      r.value[i] in xs && forall j :: 0 <= j < |xs| && xs[j].Some? ==>
        Count(xs, xs[j].value) <= Count(xs, r.value[i].value)
    ensures r.Success? ==> forall i, j :: 0 <= i < |xs| && 0 <= j < |xs| && xs[i].None? && xs[j].None? ==>
      r.value[i] == r.value[j]
    ensures r.Success? ==> exists m :: r.value == FillMissing(xs, m)
  {
    if |xs| == 0 then
      assert xs == FillMissing(xs, "");
      Success(xs)
    else
      match Mode(xs)
      case None => Failure(KeyError(0))
      case Some(m) =>
        FillMissingComplete(xs, m);
        Success(FillMissing(xs, m))
  }

  /** Both fill loops applied to one column: numeric columns take the mean,
      object columns the mode; bool and datetime columns are not touched. */
  function Impute(c: Column): (r: Result<Column, Error>)
    ensures r.Success? ==> r.value.name == c.name && r.value.Len() == c.Len()
    ensures r.Success? ==> (r.value.HasValue() <==> c.HasValue())
    ensures c.NumericCol? ==> r == Success(NumericCol(c.name, FillNumeric(c.nums)))
    ensures c.ObjectCol? ==> (r.Success? <==> FillText(c.texts).Success?)
    ensures c.ObjectCol? && r.Success? ==> r.value == ObjectCol(c.name, FillText(c.texts).value)
    ensures c.BoolCol? || c.DateTimeCol? ==> r == Success(c)
  {
    match c
    case NumericCol(name, xs) => Success(NumericCol(name, FillNumeric(xs)))
    case ObjectCol(name, xs) =>
      (match FillText(xs)
       case Success(ys) => Success(ObjectCol(name, ys))
       case Failure(e) => Failure(e))
    case BoolCol(_, _) => Success(c)
    case DateTimeCol(_, _) => Success(c)
  }

  /** The two fill loops over the whole table. They touch disjoint columns
      (after classification every numeric-dtype column is in `numeric_cols`
      and the object columns are exactly the rest that hold text), so one pass
      per column gives the same table; the only possible error is KeyError(0). */
  function ImputeAll(t: Table): (r: Result<Table, Error>)
    ensures r.Success? <==> forall i :: 0 <= i < |t| ==> Impute(t[i]).Success?
    ensures r.Failure? ==> r.error == KeyError(0)
    ensures r.Success? ==> |r.value| == |t|
    ensures r.Success? ==> forall i :: 0 <= i < |t| ==> Success(r.value[i]) == Impute(t[i])
  {
    if |t| == 0 then Success([])
    else
      match Impute(t[0])
      case Failure(e) => Failure(e)
      case Success(c) =>
        match ImputeAll(t[1..])
        case Failure(e) => Failure(e)
        case Success(rest) => Success([c] + rest)
  }

  /** The cleaning half of `generate_plots`: the cleaned table and `numeric_cols`. */
  function CleanTable(parse: string -> Option<real>, t: Table): Result<Classified, Error> {
    var c := ClassifyAll(parse, t);
    match ImputeAll(c.table)
    case Failure(e) => Failure(e)
    case Success(u) => Success(Classified(u, c.numeric))
  }

  // ---------------------------------------------------------------------------
  // Properties of the cleaning half

  /** Cleaning never adds, drops, renames or reorders a column, and keeps every
      column's row count. */
  lemma CleanTablePreservesShape(parse: string -> Option<real>, t: Table)
    requires CleanTable(parse, t).Success?
    ensures SameShape(CleanTable(parse, t).value.table, t)
    ensures |CleanTable(parse, t).value.numeric| == |t|
  {
    var c := ClassifyAll(parse, t);
    var u := CleanTable(parse, t).value.table;
    forall i | 0 <= i < |t|
      ensures u[i].name == t[i].name && u[i].Len() == t[i].Len()
    {
      assert Success(u[i]) == Impute(c.table[i]);
      assert Verdict(c.table[i], c.numeric[i]) == Classify(parse, t[i]);
    }
  }

  /** A column none of whose cleaned entries parses has no parsed entry. */
  lemma NoneParsed(parse: string -> Option<real>, xs: seq<Option<string>>)
    requires forall i :: 0 <= i < |xs| && xs[i].Some? ==> parse(CleanText(xs[i].value)).None?
    ensures Parsed(parse, xs) == 0
  {
    var cs := Coerce(parse, xs);
    assert forall i :: 0 <= i < |cs| ==> cs[i].None?;
  }

  /** A text column with rows but no value never parses, so it stays text. */
  lemma AllMissingStaysText(parse: string -> Option<real>, xs: seq<Option<string>>)
    requires Present(xs) == 0
    ensures Parsed(parse, xs) == 0
  {
    var cs := Coerce(parse, xs);
    assert forall i :: 0 <= i < |cs| ==> cs[i].None?;
  }

  /** Cleaning aborts (with KeyError(0) from `mode()[0]`) exactly when some
      column with rows is text without a single non-missing entry. */
  lemma CleanTableFailsIff(parse: string -> Option<real>, t: Table)
    ensures CleanTable(parse, t).Failure? <==>
      exists i :: 0 <= i < |t| && t[i].ObjectCol? && |t[i].texts| > 0 && Present(t[i].texts) == 0
    ensures CleanTable(parse, t).Failure? ==> CleanTable(parse, t).error == KeyError(0)
  {
    var c := ClassifyAll(parse, t);
    forall i | 0 <= i < |t|
      ensures Impute(c.table[i]).Failure? <==>
        t[i].ObjectCol? && |t[i].texts| > 0 && Present(t[i].texts) == 0
    {
      assert Verdict(c.table[i], c.numeric[i]) == Classify(parse, t[i]);
      if t[i].ObjectCol? && Present(t[i].texts) == 0 {
        AllMissingStaysText(parse, t[i].texts);
      }
    }
  }

  /** `numeric_cols` holds, in column order, exactly the numeric and bool
      columns and the text columns where more than half of the entries parse. */
  lemma CleanTableNumericColumns(parse: string -> Option<real>, t: Table, i: nat)
    requires CleanTable(parse, t).Success? && i < |t|
    ensures CleanTable(parse, t).value.numeric[i] <==>
      t[i].NumericCol? || t[i].BoolCol? || (t[i].ObjectCol? && 2 * Parsed(parse, t[i].texts) > |t[i].texts|)
  {
    assert Verdict(ClassifyAll(parse, t).table[i], ClassifyAll(parse, t).numeric[i]) == Classify(parse, t[i]);
  }

  /** After cleaning, a text column has no gap, and a numeric column has a gap
      only if it had no value at all (its mean is undefined and it is left
      all-missing). Each numeric column keeps the mean it had once coerced. */
  lemma CleanTableFillsGaps(parse: string -> Option<real>, t: Table, i: nat)
    requires CleanTable(parse, t).Success? && i < |t|
    ensures var u := CleanTable(parse, t).value.table[i];
      && (u.ObjectCol? ==> Present(u.texts) == |u.texts|)
      && (u.NumericCol? && u.HasValue() ==> Present(u.nums) == |u.nums|)
      && (u.NumericCol? && !u.HasValue() ==> forall k :: 0 <= k < |u.nums| ==> u.nums[k].None?)
      && (u.NumericCol? ==>
            ClassifyAll(parse, t).table[i].NumericCol? && Mean(u.nums) == Mean(ClassifyAll(parse, t).table[i].nums))
  {
    var c := ClassifyAll(parse, t);
    var u := CleanTable(parse, t).value.table;
    assert Success(u[i]) == Impute(c.table[i]);
  }

  /** Cleaning changes no value that was present once coerced: numeric and
      coerced columns keep their non-missing entries, text columns keep theirs,
      and bool and datetime columns are returned as they came. */
  lemma CleanTableKeepsValues(parse: string -> Option<real>, t: Table, i: nat)
    requires CleanTable(parse, t).Success? && i < |t|
    ensures var v := ClassifyAll(parse, t).table[i];
            var u := CleanTable(parse, t).value.table[i];
      && (v.NumericCol? ==> u.NumericCol? && forall k :: 0 <= k < |v.nums| && v.nums[k].Some? ==> u.nums[k] == v.nums[k])
      && (v.ObjectCol? ==> u.ObjectCol? && forall k :: 0 <= k < |v.texts| && v.texts[k].Some? ==> u.texts[k] == v.texts[k])
      && (v.BoolCol? || v.DateTimeCol? ==> u == v)
      && (v.ObjectCol? || v.BoolCol? || v.DateTimeCol? ==> v == t[i])
  {
    var c := ClassifyAll(parse, t);
    var u := CleanTable(parse, t).value.table;
    assert Success(u[i]) == Impute(c.table[i]);
    assert Verdict(c.table[i], c.numeric[i]) == Classify(parse, t[i]);
  }

  /** Which value fills each gap: a numeric column (coerced or not) is the
      mean fill of its classified form, and a text column the mode fill of
      its entries. */
  lemma CleanTableImputes(parse: string -> Option<real>, t: Table, i: nat)
    requires CleanTable(parse, t).Success? && i < |t|
    ensures var v := ClassifyAll(parse, t).table[i];
            var u := CleanTable(parse, t).value.table[i];
      && (v.NumericCol? ==> u == NumericCol(v.name, FillNumeric(v.nums)))
      && (v.ObjectCol? ==> u.ObjectCol? && FillText(v.texts) == Success(u.texts))
  {
    var c := ClassifyAll(parse, t);
    var u := CleanTable(parse, t).value.table;
    assert Success(u[i]) == Impute(c.table[i]);
  }
}

=== FILE: filenames.dfy ===
/** The file-name tests of both entry points: the upload gate `allowed_file`
    (identical in app.py and analyzer.py) and the two reader dispatches. */
module FileNames {
  import opened Wrappers
  import opened Strings

  /** The lower-case extensions the upload gate admits. */
  const AllowedExtensions: set<string> := {"csv", "xlsx"}

  /** The two table readers (`pd.read_csv`, `pd.read_excel(sheet_name=0)`). */
  datatype Reader = CsvReader | ExcelReader

  /** `ext` is the text after the last '.' of `f`. */
  ghost predicate IsLastExtension(f: string, ext: string) {
    && |ext| < |f|
    && f[|f| - |ext| - 1] == '.'
    && '.' !in ext
    && f[|f| - |ext|..] == ext
  }

  /** `f.rsplit(".", 1)[1]` when `f` contains a '.'. */
  function Extension(f: string): (r: Option<string>)
    ensures r.None? <==> '.' !in f
    ensures r.Some? ==> IsLastExtension(f, r.value)
  {
    match LastIndexOf(f, '.')
    case None => None
    case Some(i) => Some(f[i + 1..])
  }

  /** `allowed_file`: a '.' is present and the lower-cased last extension is allowed. */
  predicate AllowedFile(f: string) {
    match Extension(f)
    case None => false
    case Some(ext) => Lower(ext) in AllowedExtensions
  }

  /** A name has at most one last extension. */
  lemma LastExtensionUnique(f: string, e1: string, e2: string)
    requires IsLastExtension(f, e1) && IsLastExtension(f, e2)
    ensures e1 == e2
  {
  }

  /** The upload gate, stated without reference to how the last '.' is found. */
  lemma AllowedFileIff(f: string)
    ensures AllowedFile(f) <==>
      exists ext :: IsLastExtension(f, ext) && Lower(ext) in AllowedExtensions
  {
    if ext :| IsLastExtension(f, ext) && Lower(ext) in AllowedExtensions {
      assert f[|f| - |ext| - 1] == '.';
      LastExtensionUnique(f, ext, Extension(f).value);
    }
  }

  /** The extension of `pre + "." + ext` is `ext` whenever `ext` has no '.'. */
  lemma ExtensionOfJoin(pre: string, ext: string)
    requires '.' !in ext
    ensures Extension(pre + "." + ext) == Some(ext)
  {
    var f := pre + "." + ext;
    assert f[|f| - |ext|..] == ext;
    assert f[|f| - |ext| - 1] == '.';
    LastExtensionUnique(f, ext, Extension(f).value);
  }

  lemma AllowedFileOfJoin(pre: string, ext: string)
    requires '.' !in ext
    ensures AllowedFile(pre + "." + ext) <==> Lower(ext) in AllowedExtensions
  {
    ExtensionOfJoin(pre, ext);
  }

  /** The case of the extension does not matter to the gate: a name is
      admitted exactly when the same name with its extension lower-cased is. */
  lemma AllowedFileIgnoresCase(pre: string, ext: string)
    requires '.' !in ext
    ensures AllowedFile(pre + "." + ext) == AllowedFile(pre + "." + Lower(ext))
  {
    LowerKeepsNonLetter(ext, '.');
    LowerIdempotent(ext);
    AllowedFileOfJoin(pre, ext);
    AllowedFileOfJoin(pre, Lower(ext));
  }

  /** Only the text after the last '.' is looked at: whatever precedes it,
      dots included, does not change the verdict. */
  lemma AllowedFileUsesLastDot(pre1: string, pre2: string, ext: string)
    requires '.' !in ext
    ensures AllowedFile(pre1 + "." + ext) == AllowedFile(pre2 + "." + ext)
  {
    AllowedFileOfJoin(pre1, ext);
    AllowedFileOfJoin(pre2, ext);
  }

  /** A name without any '.' is refused, even if it is an allowed word. */
  lemma AllowedFileNeedsDot(f: string)
    requires '.' !in f
    ensures !AllowedFile(f)
  {
  }

  /** An instance: the bare word "csv" is refused. */
  lemma AllowedFileRefusesBareCsv()
    ensures !AllowedFile("csv")
  {
    assert '.' !in "csv";
    AllowedFileNeedsDot("csv");
  }

  /** The old Excel format ".xls" is not admitted. */
  lemma AllowedFileRefusesXls()
    ensures !AllowedFile("a.xls")
  {
    assert "a.xls" == "a" + "." + "xls";
    AllowedFileOfJoin("a", "xls");
    assert |Lower("xls")| == 3 && Lower("xls")[0] == 'x';
  }

  /** An allowed extension before the last '.' does not help: whatever sits
      between the dots, a refused last extension refuses the name. */
  lemma AllowedFileRefusesInnerExtension(pre: string, inner: string, ext: string)
    requires '.' !in ext && Lower(ext) !in AllowedExtensions
    ensures !AllowedFile(pre + "." + inner + "." + ext)
  {
    assert pre + "." + inner + "." + ext == (pre + "." + inner) + "." + ext;
    AllowedFileOfJoin(pre + "." + inner, ext);
  }

  /** An instance: "a.csv.txt" is refused. */
  lemma AllowedFileRefusesCsvTxt()
    ensures !AllowedFile("a.csv.txt")
  {
    assert "a.csv.txt" == "a" + "." + "csv" + "." + "txt";
    assert '.' !in "txt";
    assert |Lower("txt")| == 3 && Lower("txt")[0] == 't';
    AllowedFileRefusesInnerExtension("a", "csv", "txt");
  }

  /** app.py's reader choice, made after the gate on the sanitised name:
      a case-sensitive ".csv" suffix selects the CSV reader, anything else Excel. */
  function UploadReader(name: string): Reader {
    if EndsWith(name, ".csv") then CsvReader else ExcelReader
  }

  /** For an admitted name, the CSV reader is used only for the exact
      lower-case extension "csv"; "xlsx" in any case and every other spelling
      of "csv" (such as "CSV") go to the Excel reader. */
  lemma UploadReaderOfAllowedName(f: string)
    requires AllowedFile(f)
    ensures UploadReader(f) == CsvReader <==> Extension(f) == Some("csv")
    ensures UploadReader(f) == ExcelReader <==>
      Lower(Extension(f).value) == "xlsx" || (Lower(Extension(f).value) == "csv" && Extension(f).value != "csv")
  {
    assert "." + "csv" == ".csv";
    EndsWithIff(f, "csv");
  }

  lemma UpperCaseCsvReadAsExcel()
    ensures AllowedFile("X.CSV") && UploadReader("X.CSV") == ExcelReader
  {
    assert "X.CSV" == "X" + "." + "CSV";
    assert Lower("CSV") == "csv";
    AllowedFileOfJoin("X", "CSV");
    UploadReaderOfAllowedName("X.CSV");
  }

  /** analyzer.py's dispatch: ".csv", then ".xls"/".xlsx", otherwise ValueError. */
  function AnalyzerReader(path: string): Result<Reader, Error> {
    if EndsWith(path, ".csv") then Success(CsvReader)
    else if EndsWith(path, ".xls") || EndsWith(path, ".xlsx") then Success(ExcelReader)
    else Failure(ValueError("Unsupported file type"))
  }

  /** The analyzer dispatch, stated through the last extension: exactly the
      case-sensitive extensions "csv", "xls" and "xlsx" are read, and every
      other path fails with ValueError("Unsupported file type"). */
  lemma AnalyzerReaderIff(path: string)
    ensures AnalyzerReader(path) == Success(CsvReader) <==> Extension(path) == Some("csv")
    ensures AnalyzerReader(path) == Success(ExcelReader) <==>
      Extension(path) == Some("xls") || Extension(path) == Some("xlsx")
    ensures AnalyzerReader(path) == Failure(ValueError("Unsupported file type")) <==>
      Extension(path) != Some("csv") && Extension(path) != Some("xls") && Extension(path) != Some("xlsx")
  {
    assert "." + "csv" == ".csv" && "." + "xls" == ".xls" && "." + "xlsx" == ".xlsx";
    EndsWithIff(path, "csv");
    EndsWithIff(path, "xls");
    EndsWithIff(path, "xlsx");
  }

  /** `f` ends with "." + ext, for a dot-free `ext`, exactly when ext is its last extension. */
  lemma EndsWithIff(f: string, ext: string)
    requires '.' !in ext
    ensures EndsWith(f, "." + ext) <==> Extension(f) == Some(ext)
  {
    var d := "." + ext;
    if EndsWith(f, d) {
      assert f[|f| - |d|..] == d;
      assert f[|f| - |ext| - 1] == d[0] == '.';
      assert f[|f| - |ext|..] == f[|f| - |d|..][1..] == ext;
      assert IsLastExtension(f, ext);
      LastExtensionUnique(f, ext, Extension(f).value);
    }
    if Extension(f) == Some(ext) {
      assert f[|f| - |d|..] == [f[|f| - |d|]] + f[|f| - |ext|..];
    }
  }

  /** The two entry points disagree: the analyzer reads ".xls", which the
      upload gate refuses ... */
  lemma AnalyzerReadsRefusedXls()
    ensures !AllowedFile("a.xls") && AnalyzerReader("a.xls") == Success(ExcelReader)
  {
    AllowedFileRefusesXls();
    assert "a.xls"[1..] == ".xls";
  }

  /** ... and refuses an upper-case ".CSV", which the gate admits. */
  lemma AnalyzerRefusesAdmittedUpperCase()
    ensures AllowedFile("A.CSV") && AnalyzerReader("A.CSV").Failure?
  {
    assert "A.CSV" == "A" + "." + "CSV";
    assert Lower("CSV") == "csv";
    AllowedFileOfJoin("A", "CSV");
    assert "A.CSV"[1..] != ".csv";
  }
}

=== FILE: frames.dfy ===
/** The data frame as the two entry points see it once a reader has ingested
    the file: an ordered sequence of named columns, each of one dtype. */
module Frames {
  import opened Wrappers
  import opened Stats

  /** A column, by the dtype pandas gave it. The readers produce only these:
      int64/float64 columns (`NumericCol`, NaN as None), bool columns (which
      cannot hold NaN), `object` columns (text; None for NaN/None) and
      datetime64 columns from spreadsheets (nanosecond ticks; None for NaT). */
  datatype Column =
    | NumericCol(name: string, nums: seq<Option<real>>)
    | BoolCol(name: string, flags: seq<bool>)
    | ObjectCol(name: string, texts: seq<Option<string>>)
    | DateTimeCol(name: string, ticks: seq<Option<int>>)
  {
    /** Number of rows. */
    function Len(): nat {
      match this
      case NumericCol(_, xs) => |xs|
      case BoolCol(_, bs) => |bs|
      case ObjectCol(_, xs) => |xs|
      case DateTimeCol(_, xs) => |xs|
    }

    /** `dropna()` leaves something: the column has a non-missing entry. */
    predicate HasValue() {
      match this
      case NumericCol(_, xs) => Present(xs) > 0
      case BoolCol(_, bs) => |bs| > 0
      case ObjectCol(_, xs) => Present(xs) > 0
      case DateTimeCol(_, xs) => Present(xs) > 0
    }
  }

  type Table = seq<Column>

  /** Same column names, in the same order, with the same number of rows each. */
  ghost predicate SameShape(a: Table, b: Table) {
    && |a| == |b|
    && forall i :: 0 <= i < |a| ==> a[i].name == b[i].name && a[i].Len() == b[i].Len()
  }

  /** Positions `i` with `flags[i]`, in increasing order: the columns a
      selection such as `numeric_cols` keeps, in column order. */
  function Selected(flags: seq<bool>): (r: seq<nat>)
    ensures forall k :: 0 <= k < |r| ==> r[k] < |flags| && flags[r[k]]
    ensures forall k, l :: 0 <= k < l < |r| ==> r[k] < r[l]
    ensures forall i :: 0 <= i < |flags| && flags[i] ==> i in r
  {
    if |flags| == 0 then []
    else
      var n := |flags| - 1;
      var front := Selected(flags[..n]);
      front + (if flags[n] then [n] else [])
  }

  /** The names of the columns at the given positions. */
  function NamesAt(t: Table, idx: seq<nat>): (r: seq<string>)
    requires forall k :: 0 <= k < |idx| ==> idx[k] < |t|
    ensures |r| == |idx|
    ensures forall k :: 0 <= k < |idx| ==> r[k] == t[idx[k]].name
  {
    seq(|idx|, k requires 0 <= k < |idx| => t[idx[k]].name)
  }

  /** `a` holds the first rows of `b`: same dtype and name, and its cells
      are a prefix of `b`'s. */
  predicate FirstRowsOf(a: Column, b: Column) {
    match (a, b)
    case (NumericCol(n1, x), NumericCol(n2, y)) => n1 == n2 && x <= y
    case (BoolCol(n1, x), BoolCol(n2, y)) => n1 == n2 && x <= y
    case (ObjectCol(n1, x), ObjectCol(n2, y)) => n1 == n2 && x <= y
    case (DateTimeCol(n1, x), DateTimeCol(n2, y)) => n1 == n2 && x <= y
    case _ => false
  }

  /** `df.head(n)`: every column, in order, cut to its first min(n, rows) rows. */
  function Head(t: Table, n: nat): (r: Table)
    ensures |r| == |t|
    ensures forall i :: 0 <= i < |t| ==> FirstRowsOf(r[i], t[i])
    ensures forall i :: 0 <= i < |t| ==> r[i].Len() == if t[i].Len() < n then t[i].Len() else n
  {
    seq(|t|, i requires 0 <= i < |t| => TakeRows(t[i], n))
  }

  function TakeRows(c: Column, n: nat): (r: Column)
    ensures FirstRowsOf(r, c)
    ensures r.Len() == if c.Len() < n then c.Len() else n
  {
    match c
    case NumericCol(name, xs) => NumericCol(name, if |xs| < n then xs else xs[..n])
    case BoolCol(name, bs) => BoolCol(name, if |bs| < n then bs else bs[..n])
    case ObjectCol(name, xs) => ObjectCol(name, if |xs| < n then xs else xs[..n])
    case DateTimeCol(name, xs) => DateTimeCol(name, if |xs| < n then xs else xs[..n])
  }

  /** A column of a given length holding the first rows of another is unique:
      `head(n)` has no freedom in which rows it keeps. */
  lemma FirstRowsUnique(a: Column, a': Column, b: Column)
    requires FirstRowsOf(a, b) && FirstRowsOf(a', b) && a.Len() == a'.Len()
    ensures a == a'
  {
  }
}

=== FILE: plots.dfy ===
/** The image list both versions of `generate_plots` build, as tags instead of
    PNG bytes: per plotted column a histogram then a box plot, in column
    order, and one correlation heatmap last when more than one column is numeric. */
module Plots {
  import opened Frames

  datatype Image =
    | Histogram(column: string)       // `sns.histplot(df[col], kde=True)`
    | BoxPlot(column: string)         // `sns.boxplot(x=df[col])`
    | Heatmap(columns: seq<string>)   // `sns.heatmap(df[numeric_cols].corr())`

  /** The histogram/box-plot pairs for the given columns, in order. */
  function Pairs(names: seq<string>): (r: seq<Image>)
    ensures |r| == 2 * |names|
    ensures forall k :: 0 <= k < |names| ==>
      r[2 * k] == Histogram(names[k]) && r[2 * k + 1] == BoxPlot(names[k])
  {
    if |names| == 0 then []
    else
      var n := |names| - 1;
      Pairs(names[..n]) + [Histogram(names[n]), BoxPlot(names[n])]
  }

  /** The heatmap over `numeric_cols`, drawn only when there is more than one. */
  function HeatmapFor(names: seq<string>): seq<Image> {
    if |names| > 1 then [Heatmap(names)] else []
  }

  /** The positions of `idx` whose column has a value (`not df[col].dropna().empty`),
      in the order of `idx`. */
  function WithValue(t: Table, idx: seq<nat>): (r: seq<nat>)
    requires forall k :: 0 <= k < |idx| ==> idx[k] < |t|
    ensures forall k :: 0 <= k < |r| ==> r[k] < |t|
  {
    if |idx| == 0 then []
    else
      var n := |idx| - 1;
      WithValue(t, idx[..n]) + (if t[idx[n]].HasValue() then [idx[n]] else [])
  }

  /** WithValue keeps only positions of `idx` whose column has a value ... */
  lemma {:induction false} WithValueSound(t: Table, idx: seq<nat>)
    requires forall k :: 0 <= k < |idx| ==> idx[k] < |t|
    ensures forall k :: 0 <= k < |WithValue(t, idx)| ==>
      WithValue(t, idx)[k] in idx && t[WithValue(t, idx)[k]].HasValue()
  {
    if |idx| > 0 {
      var n := |idx| - 1;
      var front := idx[..n];
      WithValueSound(t, front);
      var r, r' := WithValue(t, idx), WithValue(t, front);
      forall k | 0 <= k < |r|
        ensures r[k] in idx && t[r[k]].HasValue()
      {
        if k < |r'| {
          assert r[k] == r'[k] && r'[k] in front;
        } else {
          assert r[k] == idx[n];
        }
      }
    }
  }

  /** ... keeps every such position ... */
  lemma {:induction false} WithValueComplete(t: Table, idx: seq<nat>)
    requires forall k :: 0 <= k < |idx| ==> idx[k] < |t|
    ensures forall k :: 0 <= k < |idx| && t[idx[k]].HasValue() ==> idx[k] in WithValue(t, idx)
  {
    if |idx| > 0 {
      var n := |idx| - 1;
      assert idx == idx[..n] + [idx[n]];
      WithValueComplete(t, idx[..n]);
    }
  }

  /** ... and keeps increasing positions increasing. */
  lemma {:induction false} WithValueOrdered(t: Table, idx: seq<nat>)
    requires forall k :: 0 <= k < |idx| ==> idx[k] < |t|
    requires forall k, l :: 0 <= k < l < |idx| ==> idx[k] < idx[l]
    ensures forall k, l :: 0 <= k < l < |WithValue(t, idx)| ==> WithValue(t, idx)[k] < WithValue(t, idx)[l]
  {
    if |idx| > 0 {
      var n := |idx| - 1;
      var front := idx[..n];
      WithValueOrdered(t, front);
      WithValueSound(t, front);
      var r, r' := WithValue(t, idx), WithValue(t, front);
      forall k | 0 <= k < |r'|
        ensures r'[k] < idx[n]
      {
        var j :| 0 <= j < n && front[j] == r'[k];
      }
    }
  }

  /** The image list of app.py's `generate_plots` for the cleaned table and
      the membership of each column in `numeric_cols`: numeric columns without
      any value are skipped for the pairs, yet still count for the heatmap. */
  function AppPlan(t: Table, numeric: seq<bool>): seq<Image>
    requires |numeric| == |t|
  {
    var cols := Selected(numeric);
    Pairs(NamesAt(t, WithValue(t, cols))) + HeatmapFor(NamesAt(t, cols))
  }

  /** The image list of analyzer.py's `generate_plots` for the selected
      columns: no column is skipped. */
  function AnalyzerPlan(t: Table, cols: seq<nat>): seq<Image>
    requires forall k :: 0 <= k < |cols| ==> cols[k] < |t|
  {
    Pairs(NamesAt(t, cols)) + HeatmapFor(NamesAt(t, cols))
  }

  /** The layout of app.py's image list: one histogram/box-plot pair per
      numeric column that has a value, in column order, then the heatmap,
      whose threshold counts every numeric column, skipped ones included. */
  lemma AppPlanLayout(t: Table, numeric: seq<bool>)
    requires |numeric| == |t|
    ensures var plotted := WithValue(t, Selected(numeric));
      |AppPlan(t, numeric)| == 2 * |plotted| + (if |Selected(numeric)| > 1 then 1 else 0)
    ensures var plotted := WithValue(t, Selected(numeric));
      forall k :: 0 <= k < |plotted| ==>
        && AppPlan(t, numeric)[2 * k] == Histogram(t[plotted[k]].name)
        && AppPlan(t, numeric)[2 * k + 1] == BoxPlot(t[plotted[k]].name)
    ensures |Selected(numeric)| > 1 ==>
      AppPlan(t, numeric)[|AppPlan(t, numeric)| - 1] == Heatmap(NamesAt(t, Selected(numeric)))
  {
    var cols := Selected(numeric);
    var plotted := WithValue(t, cols);
    var pairs := Pairs(NamesAt(t, plotted));
    assert AppPlan(t, numeric) == pairs + HeatmapFor(NamesAt(t, cols));
    forall k | 0 <= k < |plotted|
      ensures AppPlan(t, numeric)[2 * k] == Histogram(t[plotted[k]].name)
      ensures AppPlan(t, numeric)[2 * k + 1] == BoxPlot(t[plotted[k]].name)
    {
      assert pairs[2 * k] == Histogram(NamesAt(t, plotted)[k]);
      assert pairs[2 * k + 1] == BoxPlot(NamesAt(t, plotted)[k]);
    }
  }

  /** The layout of analyzer.py's image list: one histogram/box-plot pair per
      selected column, in order, then the heatmap when more than one is selected. */
  lemma AnalyzerPlanLayout(t: Table, cols: seq<nat>)
    requires forall k :: 0 <= k < |cols| ==> cols[k] < |t|
    ensures |AnalyzerPlan(t, cols)| == 2 * |cols| + (if |cols| > 1 then 1 else 0)
    ensures forall k :: 0 <= k < |cols| ==>
      && AnalyzerPlan(t, cols)[2 * k] == Histogram(t[cols[k]].name)
      && AnalyzerPlan(t, cols)[2 * k + 1] == BoxPlot(t[cols[k]].name)
    ensures |cols| > 1 ==> AnalyzerPlan(t, cols)[|AnalyzerPlan(t, cols)| - 1] == Heatmap(NamesAt(t, cols))
  {
    var pairs := Pairs(NamesAt(t, cols));
    forall k | 0 <= k < |cols|
      ensures AnalyzerPlan(t, cols)[2 * k] == Histogram(t[cols[k]].name)
      ensures AnalyzerPlan(t, cols)[2 * k + 1] == BoxPlot(t[cols[k]].name)
    {
      assert pairs[2 * k] == Histogram(NamesAt(t, cols)[k]);
      assert pairs[2 * k + 1] == BoxPlot(NamesAt(t, cols)[k]);
    }
  }

  lemma NamesAtSnoc(t: Table, idx: seq<nat>, i: nat)
    requires forall k :: 0 <= k < |idx| ==> idx[k] < |t|
    requires i < |t|
    ensures NamesAt(t, idx + [i]) == NamesAt(t, idx) + [t[i].name]
  {
  }

  /** One iteration of app.py's plot loop extends the pairs by the column's
      two plots exactly when the column has a value. */
  lemma AppPlotStep(t: Table, cols: seq<nat>, k: nat)
    requires forall j :: 0 <= j < |cols| ==> cols[j] < |t|
    requires k < |cols|
    ensures Pairs(NamesAt(t, WithValue(t, cols[..k + 1]))) ==
      Pairs(NamesAt(t, WithValue(t, cols[..k]))) +
      (if t[cols[k]].HasValue() then [Histogram(t[cols[k]].name), BoxPlot(t[cols[k]].name)] else [])
  {
    var i := cols[k];
    var w := WithValue(t, cols[..k]);
    assert cols[..k + 1][..k] == cols[..k];
    assert WithValue(t, cols[..k + 1]) == w + (if t[i].HasValue() then [i] else []);
    if t[i].HasValue() {
      NamesAtSnoc(t, w, i);
      var names := NamesAt(t, w + [i]);
      assert names[..|names| - 1] == NamesAt(t, w);
    } else {
      assert w + [] == w;
    }
  }

  /** The plot loop of app.py, statement by statement: walk `numeric_cols`,
      skip a column without values, append its histogram then its box plot. */
  method RenderAppPairs(t: Table, cols: seq<nat>) returns (images: seq<Image>)
    requires forall j :: 0 <= j < |cols| ==> cols[j] < |t|
    ensures images == Pairs(NamesAt(t, WithValue(t, cols)))
  {
    images := [];
    var k := 0;
    while k < |cols|
      invariant 0 <= k <= |cols|
      invariant images == Pairs(NamesAt(t, WithValue(t, cols[..k])))
    {
      var i := cols[k];
      AppPlotStep(t, cols, k);
      if t[i].HasValue() {
        images := images + [Histogram(t[i].name), BoxPlot(t[i].name)];
      }
      k := k + 1;
    }
    assert cols[..k] == cols;
  }

  /** app.py's image list: the pairs, then the heatmap when
      `len(numeric_cols) > 1`. */
  method RenderAppPlots(t: Table, numeric: seq<bool>) returns (images: seq<Image>)
    requires |numeric| == |t|
    ensures var plotted := WithValue(t, Selected(numeric));
      |images| == 2 * |plotted| + (if |Selected(numeric)| > 1 then 1 else 0)
    ensures var plotted := WithValue(t, Selected(numeric));
      forall k :: 0 <= k < |plotted| ==>
        images[2 * k] == Histogram(t[plotted[k]].name) && images[2 * k + 1] == BoxPlot(t[plotted[k]].name)
    ensures |Selected(numeric)| > 1 ==> images[|images| - 1] == Heatmap(NamesAt(t, Selected(numeric)))
    ensures images == AppPlan(t, numeric)
  {
    var cols := Selected(numeric);
    images := RenderAppPairs(t, cols);
    if |cols| > 1 {
      images := images + [Heatmap(NamesAt(t, cols))];
    }
    AppPlanLayout(t, numeric);
  }

  /** One iteration of analyzer.py's plot loop adds the column's two plots. */
  lemma AnalyzerPlotStep(t: Table, cols: seq<nat>, k: nat)
    requires forall j :: 0 <= j < |cols| ==> cols[j] < |t|
    requires k < |cols|
    ensures Pairs(NamesAt(t, cols[..k + 1])) ==
      Pairs(NamesAt(t, cols[..k])) + [Histogram(t[cols[k]].name), BoxPlot(t[cols[k]].name)]
  {
    assert cols[..k + 1] == cols[..k] + [cols[k]];
    NamesAtSnoc(t, cols[..k], cols[k]);
    assert NamesAt(t, cols[..k + 1])[..k] == NamesAt(t, cols[..k]);
  }

  /** The plot loop of analyzer.py: a histogram and a box plot per selected
      column, in order. */
  method RenderAnalyzerPairs(t: Table, cols: seq<nat>) returns (images: seq<Image>)
    requires forall k :: 0 <= k < |cols| ==> cols[k] < |t|
    ensures images == Pairs(NamesAt(t, cols))
  {
    images := [];
    var k := 0;
    while k < |cols|
      invariant 0 <= k <= |cols|
      invariant images == Pairs(NamesAt(t, cols[..k]))
    {
      AnalyzerPlotStep(t, cols, k);
      images := images + [Histogram(t[cols[k]].name), BoxPlot(t[cols[k]].name)];
      k := k + 1;
    }
    assert cols[..k] == cols;
  }

  /** analyzer.py's image list: the pairs, then the heatmap when more than
      one column is selected. */
  method RenderAnalyzerPlots(t: Table, cols: seq<nat>) returns (images: seq<Image>)
    requires forall k :: 0 <= k < |cols| ==> cols[k] < |t|
    ensures |images| == 2 * |cols| + (if |cols| > 1 then 1 else 0)
    ensures forall k :: 0 <= k < |cols| ==>
      images[2 * k] == Histogram(t[cols[k]].name) && images[2 * k + 1] == BoxPlot(t[cols[k]].name)
    ensures |cols| > 1 ==> images[|images| - 1] == Heatmap(NamesAt(t, cols))
    ensures images == AnalyzerPlan(t, cols)
  {
    images := RenderAnalyzerPairs(t, cols);
    if |cols| > 1 {
      images := images + [Heatmap(NamesAt(t, cols))];
    }
    AnalyzerPlanLayout(t, cols);
  }
}

=== FILE: stats.dfy ===
/** The column statistics pandas computes for the cleaner: the count of
    non-missing entries, the mean (NaN skipped) and a most frequent value
    (`mode()[0]`), and the fill operation `fillna(v)`. */
module Stats {
  import opened Wrappers

  /** Number of non-missing entries, pandas' `notna().sum()`. */
  function Present<T>(xs: seq<Option<T>>): (n: nat)
    ensures n <= |xs|
    ensures n == 0 <==> forall i :: 0 <= i < |xs| ==> xs[i].None?
    ensures n == |xs| <==> forall i :: 0 <= i < |xs| ==> xs[i].Some?
  {
    if |xs| == 0 then 0
    else
      var rest := Present(xs[1..]);
      assert forall i :: 1 <= i < |xs| ==> xs[i] == xs[1..][i - 1];
      (if xs[0].Some? then 1 else 0) + rest
  }

  /** A sequence missing wherever another is missing has no more values. */
  lemma {:induction false} PresentMonotone<T, U>(a: seq<Option<T>>, b: seq<Option<U>>)
    requires |a| == |b|
    requires forall i :: 0 <= i < |a| && a[i].Some? ==> b[i].Some?
    ensures Present(a) <= Present(b)
  {
    if |a| > 0 {
      assert forall i :: 0 <= i < |a| - 1 ==> a[1..][i] == a[i + 1] && b[1..][i] == b[i + 1];
      PresentMonotone(a[1..], b[1..]);
    }
  }

  /** Sum of the non-missing entries. */
  function Total(xs: seq<Option<real>>): real {
    if |xs| == 0 then 0.0
    else (if xs[0].Some? then xs[0].value else 0.0) + Total(xs[1..])
  }

  /** `Series.mean()`: the average of the non-missing entries, undefined
      (None, pandas' NaN) when there are none. */
  function Mean(xs: seq<Option<real>>): (m: Option<real>)
    ensures m.None? <==> forall i :: 0 <= i < |xs| ==> xs[i].None?
  {
    var n := Present(xs);
    if n == 0 then None else Some(Total(xs) / n as real)
  }

  /** `c` added to itself `n` times, so that the bounds below stay linear. */
  function Scaled(c: real, n: nat): real {
    if n == 0 then 0.0 else c + Scaled(c, n - 1)
  }

  /** `fillna(v)`: every missing entry becomes `v`, the others stay. */
  function FillMissing<T>(xs: seq<Option<T>>, v: T): (r: seq<Option<T>>)
    ensures |r| == |xs|
  {
    seq(|xs|, i requires 0 <= i < |xs| => if xs[i].Some? then xs[i] else Some(v))
  }

  /** Occurrences of the value `v` among the entries. */
  function Count<T(==)>(xs: seq<Option<T>>, v: T): nat {
    if |xs| == 0 then 0
    else (if xs[0] == Some(v) then 1 else 0) + Count(xs[1..], v)
  }

  /** A most frequent non-missing value among `xs[k..]`, frequencies counted
      over the whole of `xs`; on a tie the earliest such entry wins. */
  function BestFrom<T(==)>(xs: seq<Option<T>>, k: nat): (r: Option<T>)
    requires k <= |xs|
    ensures r.None? <==> forall j :: k <= j < |xs| ==> xs[j].None?
    ensures r.Some? ==> r in xs[k..]
    ensures r.Some? ==>
      forall j :: k <= j < |xs| && xs[j].Some? ==> Count(xs, xs[j].value) <= Count(xs, r.value)
    decreases |xs| - k
  {
    if k == |xs| then None
    else
      var rest := BestFrom(xs, k + 1);
      assert xs[k..] == [xs[k]] + xs[k + 1..];
      match xs[k]
      case None => rest
      case Some(v) =>
        if rest.Some? && Count(xs, rest.value) > Count(xs, v) then rest else Some(v)
  }

  /** `Series.mode()[0]`: a non-missing value of maximal frequency, or None
      when the column has no non-missing value (pandas then raises). */
  function Mode<T(==)>(xs: seq<Option<T>>): (r: Option<T>)
    ensures r.None? <==> Present(xs) == 0
    ensures r.Some? ==> r in xs
    ensures r.Some? ==>
      forall j :: 0 <= j < |xs| && xs[j].Some? ==> Count(xs, xs[j].value) <= Count(xs, r.value)
  {
    assert xs[0..] == xs;
    BestFrom(xs, 0)
  }

  // ---------------------------------------------------------------------------
  // Properties of the fill

  /** After `fillna(v)` no entry is missing. */
  lemma FillMissingComplete<T>(xs: seq<Option<T>>, v: T)
    ensures Present(FillMissing(xs, v)) == |xs|
  {
  }

  /** `fillna` on a column without missing entries changes nothing. */
  lemma FillMissingNoop<T>(xs: seq<Option<T>>, v: T)
    requires Present(xs) == |xs|
    ensures FillMissing(xs, v) == xs
  {
  }

  lemma {:induction false} FillMissingTail<T>(xs: seq<Option<T>>, v: T)
    requires |xs| > 0
    ensures FillMissing(xs, v)[1..] == FillMissing(xs[1..], v)
    ensures FillMissing(xs, v)[0] == (if xs[0].Some? then xs[0] else Some(v))
  {
  }

  /** Filling adds `v` once per missing entry to the sum. */
  lemma {:induction false} TotalOfFill(xs: seq<Option<real>>, v: real)
    ensures Total(FillMissing(xs, v)) == Total(xs) + Scaled(v, |xs| - Present(xs))
  {
    if |xs| > 0 {
      FillMissingTail(xs, v);
      TotalOfFill(xs[1..], v);
    }
  }

  /** Filling with `v` adds one occurrence of `v` per missing entry and leaves
      the frequency of every other value alone. */
  lemma {:induction false} CountOfFill<T>(xs: seq<Option<T>>, v: T, w: T)
    ensures Count(FillMissing(xs, v), w) == Count(xs, w) + (if w == v then |xs| - Present(xs) else 0)
  {
    if |xs| > 0 {
      FillMissingTail(xs, v);
      CountOfFill(xs[1..], v, w);
    }
  }

  // ---------------------------------------------------------------------------
  // Properties of the mean

  lemma {:induction false} ScaledIsProduct(c: real, n: nat)
    ensures Scaled(c, n) == c * n as real
  {
    if n > 0 {
      ScaledIsProduct(c, n - 1);
      assert c * n as real == c + c * (n - 1) as real;
    }
  }

  /** The sum lies between n times any lower and n times any upper bound of
      the n non-missing values. */
  lemma {:induction false} TotalBounds(xs: seq<Option<real>>, lo: real, hi: real)
    requires forall i :: 0 <= i < |xs| && xs[i].Some? ==> lo <= xs[i].value <= hi
    ensures Scaled(lo, Present(xs)) <= Total(xs) <= Scaled(hi, Present(xs))
  {
    if |xs| > 0 {
      var tail := xs[1..];
      assert forall i :: 0 <= i < |tail| && tail[i].Some? ==> lo <= tail[i].value <= hi;
      TotalBounds(tail, lo, hi);
      if xs[0].Some? {
        assert lo <= xs[0].value <= hi;
      }
    }
  }

  /** Dividing bounds of n times a quotient by a positive n. */
  lemma QuotientBounds(t: real, n: real, lo: real, hi: real)
    requires n > 0.0
    requires lo * n <= t <= hi * n
    ensures lo <= t / n <= hi
  {
    assert (t / n) * n == t;
  }

  /** The mean lies within every interval holding all non-missing values; in
      particular a column of one repeated value has that value as its mean. */
  lemma MeanWithinBounds(xs: seq<Option<real>>, lo: real, hi: real)
    requires forall i :: 0 <= i < |xs| && xs[i].Some? ==> lo <= xs[i].value <= hi
    requires Mean(xs).Some?
    ensures lo <= Mean(xs).value <= hi
  {
    TotalBounds(xs, lo, hi);
    AverageBounds(Total(xs), Present(xs), lo, hi);
  }

  /** The arithmetic behind MeanWithinBounds. */
  lemma AverageBounds(t: real, n: nat, lo: real, hi: real)
    requires n > 0
    requires Scaled(lo, n) <= t <= Scaled(hi, n)
    ensures lo <= t / n as real <= hi
  {
    ScaledIsProduct(lo, n);
    ScaledIsProduct(hi, n);
    QuotientBounds(t, n as real, lo, hi);
  }

  /** The arithmetic behind MeanOfFillWithMean: adding the mean of k values
      n - k more times leaves the average at the mean. */
  lemma FillMeanAlgebra(t: real, k: nat, n: nat, m: real, t': real)
    requires 0 < k <= n
    requires m == t / k as real
    requires t' == t + Scaled(m, n - k)
    ensures t' / n as real == m
  {
    ScaledIsProduct(m, n - k);
    assert t == m * k as real;
    assert t' == m * n as real;
  }

  /** Filling a column with its own mean leaves the mean unchanged. */
  lemma MeanOfFillWithMean(xs: seq<Option<real>>)
    requires Mean(xs).Some?
    ensures Mean(FillMissing(xs, Mean(xs).value)) == Mean(xs)
  {
    var m := Mean(xs).value;
    var ys := FillMissing(xs, m);
    FillMissingComplete(xs, m);
    TotalOfFill(xs, m);
    FillMeanAlgebra(Total(xs), Present(xs), |xs|, m, Total(ys));
  }

  // ---------------------------------------------------------------------------
  // Properties of the mode

  /** Filling the missing entries with a mode keeps it a most frequent value. */
  lemma ModeSurvivesFill<T>(xs: seq<Option<T>>)
    requires Mode(xs).Some?
    ensures forall j :: 0 <= j < |xs| ==>
      var ys := FillMissing(xs, Mode(xs).value);
      Count(ys, ys[j].value) <= Count(ys, Mode(xs).value)
  {
    var m := Mode(xs).value;
    var ys := FillMissing(xs, m);
    forall j | 0 <= j < |xs|
      ensures Count(ys, ys[j].value) <= Count(ys, m)
    {
      CountOfFill(xs, m, ys[j].value);
      CountOfFill(xs, m, m);
    }
  }
}

=== FILE: strings.dfy ===
/** The few string operations the upload and cleaning code relies on, with the
    meaning Python gives them. */
module Strings {
  import opened Wrappers

  /** The characters for which Python's `str.isspace()` holds; `str.strip()`
      removes exactly these from both ends. */
  predicate IsSpace(c: char) {
    || ('\t' <= c <= '\r')
    || ('\U{1C}' <= c <= ' ')
    || c == '\U{85}' || c == '\U{A0}' || c == '\U{1680}'
    || ('\U{2000}' <= c <= '\U{200A}')
    || c == '\U{2028}' || c == '\U{2029}' || c == '\U{202F}' || c == '\U{205F}' || c == '\U{3000}'
  }

  /** ASCII case folding. For the extension test this agrees with Python's
      `str.lower()`: no non-ASCII character lower-cases to a letter of "csv" or "xlsx". */
  function LowerChar(c: char): char {
    if 'A' <= c <= 'Z' then (c as int + 32) as char else c
  }

  function Lower(s: string): (r: string)
    ensures |r| == |s|
    ensures forall i :: 0 <= i < |s| ==> r[i] == LowerChar(s[i])
  {
    if |s| == 0 then [] else [LowerChar(s[0])] + Lower(s[1..])
  }

  /** Lower-casing twice is lower-casing once. */
  lemma LowerIdempotent(s: string)
    ensures Lower(Lower(s)) == Lower(s)
  {
    assert forall i :: 0 <= i < |s| ==> Lower(Lower(s))[i] == LowerChar(LowerChar(s[i])) == Lower(s)[i];
  }

  /** Lower-casing neither adds nor removes a given non-letter such as '.'. */
  lemma LowerKeepsNonLetter(s: string, c: char)
    requires !('A' <= c <= 'Z') && !('a' <= c <= 'z')
    ensures c in Lower(s) <==> c in s
  {
    if c in Lower(s) {
      var i :| 0 <= i < |s| && Lower(s)[i] == c;
      assert s[i] == c;
    }
    if c in s {
      var i :| 0 <= i < |s| && s[i] == c;
      assert Lower(s)[i] == c;
    }
  }

  /** Python's `s.endswith(suffix)`. */
  predicate EndsWith(s: string, suffix: string) {
    |suffix| <= |s| && s[|s| - |suffix|..] == suffix
  }

  /** Position of the last occurrence of `c`, if any. */
  function LastIndexOf(s: string, c: char): (r: Option<nat>)
    ensures r.None? <==> c !in s
    ensures r.Some? ==> r.value < |s| && s[r.value] == c && c !in s[r.value + 1..]
  {
    if |s| == 0 then None
    else if s[|s| - 1] == c then Some(|s| - 1)
    else
      var r := LastIndexOf(s[..|s| - 1], c);
      assert s == s[..|s| - 1] + [s[|s| - 1]];
      if r.Some? then
        assert s[r.value + 1..] == s[..|s| - 1][r.value + 1..] + [s[|s| - 1]];
        r
      else r
  }

  /** `s.replace(",", "")`: every comma deleted, everything else kept in order.
      The one-character cases below and RemoveCommasAppend determine the
      result, order included. */
  function RemoveCommas(s: string): (r: string)
    ensures ',' !in r
    ensures forall c :: c != ',' ==> multiset(r)[c] == multiset(s)[c]
    ensures ',' !in s ==> r == s
    ensures |s| == 1 ==> r == if s[0] == ',' then [] else s
  {
    if |s| == 0 then s
    else
      assert s == [s[0]] + s[1..];
      (if s[0] == ',' then [] else [s[0]]) + RemoveCommas(s[1..])
  }

  /** Removing commas distributes over concatenation: the kept characters
      stay in their order. */
  lemma {:induction false} RemoveCommasAppend(a: string, b: string)
    ensures RemoveCommas(a + b) == RemoveCommas(a) + RemoveCommas(b)
  {
    if |a| > 0 {
      assert (a + b)[0] == a[0];
      assert (a + b)[1..] == a[1..] + b;
      RemoveCommasAppend(a[1..], b);
      var h: string := if a[0] == ',' then [] else [a[0]];
      assert RemoveCommas(a + b) == h + RemoveCommas(a[1..] + b);
      assert RemoveCommas(a) == h + RemoveCommas(a[1..]);
      assert h + (RemoveCommas(a[1..]) + RemoveCommas(b)) == (h + RemoveCommas(a[1..])) + RemoveCommas(b);
    } else {
      assert a + b == b;
      assert RemoveCommas(a) == [];
    }
  }

  /** First index at or after `i` that does not hold white space (or |s|). */
  function SkipSpaces(s: string, i: nat): (j: nat)
    requires i <= |s|
    ensures i <= j <= |s|
    ensures forall k :: i <= k < j ==> IsSpace(s[k])
    ensures j < |s| ==> !IsSpace(s[j])
    decreases |s| - i
  {
    if i == |s| || !IsSpace(s[i]) then i else SkipSpaces(s, i + 1)
  }

  /** Largest `j'` in [lo, j] such that `s[lo..j']` has no trailing white space. */
  function SkipSpacesBack(s: string, lo: nat, j: nat): (j': nat)
    requires lo <= j <= |s|
    ensures lo <= j' <= j
    ensures forall k :: j' <= k < j ==> IsSpace(s[k])
    ensures lo < j' ==> !IsSpace(s[j' - 1])
  {
    if j == lo || !IsSpace(s[j - 1]) then j else SkipSpacesBack(s, lo, j - 1)
  }

  /** Bounds of the slice Python's `s.strip()` keeps: only white space lies
      outside it, and it neither starts nor ends with white space. */
  function StripBounds(s: string): (b: (nat, nat))
    ensures b.0 <= b.1 <= |s|
    ensures forall k :: 0 <= k < b.0 ==> IsSpace(s[k])
    ensures forall k :: b.1 <= k < |s| ==> IsSpace(s[k])
    ensures b.0 < b.1 ==> !IsSpace(s[b.0]) && !IsSpace(s[b.1 - 1])
  {
    var i := SkipSpaces(s, 0);
    (i, SkipSpacesBack(s, i, |s|))
  }

  /** Python's `s.strip()`: a slice of `s` outside which there is only white
      space, and which neither starts nor ends with white space. */
  function Strip(s: string): (r: string)
    ensures r == [] || (!IsSpace(r[0]) && !IsSpace(r[|r| - 1]))
    ensures exists i, j ::
      && 0 <= i <= j <= |s|
      && r == s[i..j]
      && (forall k :: 0 <= k < i ==> IsSpace(s[k]))
      && (forall k :: j <= k < |s| ==> IsSpace(s[k]))
  {
    s[StripBounds(s).0..StripBounds(s).1]
  }

  /** A string that neither starts nor ends with white space is its own strip. */
  lemma StripNoop(s: string)
    requires s == [] || (!IsSpace(s[0]) && !IsSpace(s[|s| - 1]))
    ensures Strip(s) == s
  {
    var b := StripBounds(s);
    if |s| > 0 {
      assert b.0 == 0;
      assert b.1 == |s|;
    }
  }

  /** What `strip` returns neither starts nor ends with white space. */
  lemma StripTrimmed(s: string)
    ensures Strip(s) == [] || (!IsSpace(Strip(s)[0]) && !IsSpace(Strip(s)[|Strip(s)| - 1]))
  {
  }

  /** A slice of a comma-free string is comma-free. */
  lemma NoCommaInSlice(s: string, i: nat, j: nat)
    requires ',' !in s && i <= j <= |s|
    ensures ',' !in s[i..j]
  {
    assert forall k :: 0 <= k < j - i ==> s[i..j][k] == s[i + k];
  }
}

=== FILE: wrappers.dfy ===
/** Option and Result datatypes shared by the whole model, plus the two Python
    exceptions the modelled code can raise. */
module Wrappers {

  /** A possibly-absent value; in a table column `None` is a missing cell (NaN/None). */
  datatype Option<+T> = None | Some(value: T)

  /** Either a value or the error that aborted the computation. */
  datatype Result<+T, +E> = Success(value: T) | Failure(error: E)

  /** The exceptions that escape the modelled functions. */
  datatype Error =
    | ValueError(message: string)   // raised by the analyzer's file-type dispatch
    | KeyError(key: int)            // raised by `mode()[0]` on a column with no mode
}
